=== FILE: README.md ===
# Language learners manager: a Dafny model of its bookkeeping logic

The language learners manager is a small Persian-language web application. A
teacher uses it to keep track of their learners, each learner's installment
plan, the payments received and follow-up reminders. All of its logic runs in
the browser, in four script files:

- `assets/js/utils.js`: the Solar Hijri (Jalali) calendar conversions
  `gregorianToJalali` and `jalaliToGregorian`. It also holds the
  Persian/ASCII digit maps, `formatDatePersian` and `parseDate`.
- `assets/js/learners.js`: `saveLearner` checks the learner form and writes the
  learner row. For a new learner with a plan, `generateInstallments` writes the
  installment schedule. `refreshLearners` counts each learner's paid, pending
  and overdue installments.
- `assets/js/installments.js`: `savePayment`, `deletePayment` and
  `saveInstallmentNote` change one installment. `refreshInstallments` lists the
  installments still to collect, filters them and labels each row.
  `refreshPayments` lists the paid installments.
- `assets/js/reminders.js`: a reminder's state (completed, sent, not followed
  up, waiting), the list filters, the shown name and the description
  preview. `markReminderCompleted` marks a reminder completed.

The model lifts this logic out of the page and the data store. It uses pure
functions over immutable records:

- Every store read becomes a sequence of records.
- Every store write becomes the record value written.
- Dates in the installment tables are whole day numbers. Reminder times are
  whole timestamps.
- "Today", "now" and the start of today and tomorrow are parameters.
- Two things the browser decides are parameters too. `isoAccepts` says whether
  the `Date` string parser accepts a text. `dayOf` gives the day a parsed
  date falls on.

The files:

| file | module | what it holds |
|---|---|---|
| `wrappers.dfy` | `Wrappers` | `Option` and `Result` |
| `text.dfy` | `Text` | the string built-ins: `trim`, `toLowerCase`, `includes`, `split`, `parseInt`, `String(n)`, `padStart`, the 50-character preview |
| `digits.dfy` | `Digits` | `toPersianDigits` and `toEnglishDigits` |
| `calendar.dfy` | `Calendar` | both calendar conversions, each stated against a day numbering of its calendar |
| `calendar_roundtrip.dfy` | `CalendarRoundTrip` | how the two conversions relate, and worked dates around Nowruz 1403 |
| `date_text.dfy` | `DateText` | `formatDatePersian` and the branch choice of `parseDate` |
| `records.dfy` | `Records` | the installment record, the `text \|\| null` convention, the name search |
| `learners.dfy` | `Learners` | `saveLearner`, `generateInstallments`, the counts of `refreshLearners` |
| `installments.dfy` | `Installments` | payments, notes, the list of dues and its filters, row labels, the payments list |
| `reminders.dfy` | `Reminders` | reminder state, filter, shown name, description preview, marking completed |

Three observations about the code:

- A phone number typed in Persian digits is not refused. `saveLearner` strips
  every character that is not an ASCII digit, so that phone becomes empty and
  the learner is saved with no phone. See `Learners.PersianPhoneIsDropped` and
  `Learners.PersianPhoneSavedWithout`.
- Editing a learner rewrites only the learner row (learners.js:167-175).
  Installments are generated only when a learner is inserted. Changing a
  plan later leaves the existing installments as they were.
- Every installment amount is `floor(total / count)`, and the remainder is
  never billed. `Learners.ScheduleSum` states the exact shortfall.

## Model

| member | source | states |
|---|---|---|
| Text.TrimIsInnerSlice | assets/js/utils.js:93 | `trim` keeps a contiguous piece of the text, and a text of blanks trims to the empty string |
| Text.TrimFixesTrimmed | assets/js/utils.js:93 | a text with no blank at either end is its own trim, so trimming twice is trimming once |
| Text.TrimStart | assets/js/utils.js:93 | `trim` first drops the leading whitespace: what is left is a suffix of the text, everything dropped is whitespace, and what is left does not start with whitespace |
| Text.TrimEnd | assets/js/utils.js:93 | `trim` then drops the trailing whitespace: what is left is a prefix, everything dropped is whitespace, and what is left does not end with whitespace |
| Text.Trim | assets/js/utils.js:93 | `trim` never lengthens the text and leaves no whitespace at either end |
| Text.Lower | assets/js/learners.js:275 | lower-casing keeps the length and maps each character on its own |
| Text.LowerChar | assets/js/learners.js:275 | an ASCII capital becomes the small letter 32 code points above it; every other character is kept (see "## Left out") |
| Text.LowerIdempotent | assets/js/installments.js:197 | lower-casing an already lower-cased search term changes nothing |
| Text.ContainsIffOccurs | assets/js/installments.js:238 | `includes` holds exactly when the term occurs at some position of the name |
| Text.ContainsBasics | assets/js/installments.js:238 | every name contains the empty term; only a name at least as long as the term can contain it |
| Text.Contains | assets/js/installments.js:238 | `includes` finds a text in itself, and never finds a term longer than the text |
| Text.Split | assets/js/utils.js:97 | `split('/')` gives one more part than there are slashes, and no part holds a slash |
| Text.JoinSplit | assets/js/utils.js:97 | joining the parts of a split with the separator gives back the text |
| Text.SplitJoin | assets/js/utils.js:97 | splitting a join of slash-free parts gives back exactly those parts |
| Text.NatToString | assets/js/utils.js:80 | `String(n)` is a non-empty run of ASCII digits without a leading zero |
| Text.DigitsValueOfNatToString | assets/js/utils.js:80 | the digits of `String(n)` read back as `n` |
| Text.Pad2 | assets/js/utils.js:81-82 | `padStart(2, '0')` puts one `0` in front of a one-digit number and leaves longer numbers as `String(n)`, so a month or day is exactly two digits |
| Text.ParseInt | assets/js/utils.js:99-101 | `parseInt` is `NaN` exactly when, after leading blanks and one optional sign, no digit follows; otherwise it is the value of the longest digit run there, negated after `-` |
| Text.ParseIntReads | assets/js/utils.js:99-101 | blanks, a digit run and anything not starting with a digit (`" 1 "`, `"12abc"`) read as the value of the run |
| Text.ParseIntReadsSigned | assets/js/utils.js:99-101 | blanks, a sign, a digit run and anything not starting with a digit (`"-5"`) read as the signed value of the run |
| Text.ParseIntOfDigits | assets/js/utils.js:99-101 | `parseInt` of a run of digits is its decimal value |
| Text.ParseIntOfNatToString | assets/js/utils.js:99 | `parseInt(String(n)) == n` |
| Text.ParseIntOfPad2 | assets/js/utils.js:100-101 | `parseInt` reads a zero-padded month or day back as the number |
| Text.Preview | assets/js/installments.js:285 | a preview of at most 50 characters is the text itself; a longer text shows its first 50 characters followed by `...` |
| Text.PreviewShape | assets/js/installments.js:285 | a preview has at most 53 characters, starts like the text, and previewing it again changes nothing |
| Digits.PersianChar | assets/js/utils.js:54 | an ASCII digit becomes the Persian digit of the same value; every other character is kept |
| Digits.EnglishChar | assets/js/utils.js:62-64 | a Persian digit becomes the ASCII digit of the same value; every other character is kept |
| Digits.ToPersianDigits | assets/js/utils.js:51-55 | same length, each character mapped by itself, and no ASCII digit left |
| Digits.ReplaceAll | assets/js/utils.js:63 | a global one-character replacement keeps the length and changes exactly the matching characters |
| Digits.ReplacePassesCharwise | assets/js/utils.js:62-64 | the ten replacement passes together map each character by itself to its ASCII digit |
| Digits.ToEnglishDigits | assets/js/utils.js:58-66 | same length, each character mapped by itself, and no Persian digit left |
| Digits.ToPersianIdempotent | assets/js/utils.js:54 | converting to Persian digits twice is converting once |
| Digits.ToEnglishIdempotent | assets/js/utils.js:62-64 | converting to ASCII digits twice is converting once |
| Digits.EnglishAfterPersian | assets/js/utils.js:51-66 | `toEnglishDigits(toPersianDigits(s)) == s` when `s` has no Persian digit |
| Digits.PersianAfterEnglish | assets/js/utils.js:51-66 | `toPersianDigits(toEnglishDigits(s)) == s` when `s` has no ASCII digit |
| Digits.MixedDigitsDoNotRoundTrip | assets/js/utils.js:51-66 | on text holding both kinds of digit the two maps are not inverse: `"1۲"` comes back as `"12"` |
| Calendar.GregorianMonthTable | assets/js/utils.js:41 | `sal_a` has a sentinel 0 and twelve month lengths between 28 and 31 |
| Calendar.FebruaryLength | assets/js/utils.js:41 | February has 29 days exactly when `(gy%4==0 && gy%100!=0) \|\| gy%400==0`, and 28 otherwise |
| Calendar.MonthTableSumsToYear | assets/js/utils.js:41 | the twelve month lengths add up to 366 in a leap year and 365 otherwise |
| Calendar.CumulativeDaysAgree | assets/js/utils.js:5 | `g_d_m` agrees with the month table in a common year and is one day short after February of a leap year |
| Calendar.IsGregorianLeap | assets/js/utils.js:41 | the leap rule of `sal_a`: every leap year is a multiple of 4, and every multiple of 400 is leap |
| Calendar.LeapCountAgrees | assets/js/utils.js:8 | the leap-year terms of the day count and the `sal_a` rule of line 41 agree: from 1600 on, counting one more year adds one exactly when that year is leap |
| Calendar.GregorianYearStartStep | assets/js/utils.js:8 | the three leap terms of the day count grow by one year's length per year |
| Calendar.GregorianYearStartIsSum | assets/js/utils.js:8 | the closed-form year start equals the year lengths added one by one |
| Calendar.GregorianYearStartMonotone | assets/js/utils.js:8 | each Gregorian year starts after every earlier one has ended |
| Calendar.FourYearSplit | assets/js/utils.js:11-16 | the four-year step returns whole years and a day that lies inside the last year |
| Calendar.YearOfGroup | assets/js/utils.js:13-16 | inside one 1461-day group, the first year has 366 days and the other three 365 |
| Calendar.JalaliYearStartStep | assets/js/utils.js:26 | the leap terms `parseInt(jy/33)*8 + parseInt((jy%33+3)/4)` grow by one Jalali year's length per year |
| Calendar.JalaliYearStartMonotone | assets/js/utils.js:26 | each Jalali year starts after every earlier one has ended |
| Calendar.GregorianDayCountAsWritten | assets/js/utils.js:7-8 | the day count is the Gregorian day number shifted by 79, but one day short from March on in a leap year |
| Calendar.GregorianDayCount | assets/js/utils.js:7-8 | the count as written is the corrected count, one less from March on in a leap year, because its leap terms count only the years before `gy` |
| Calendar.GregorianDayCountFixed | assets/js/utils.js:7-8 | corrected half: the count with the leap-day term restored is exactly the Gregorian day number shifted by 79 |
| Calendar.JalaliYearOfDay | assets/js/utils.js:9-16 | the cycle reductions give a year `jy` that never decreases and a remaining day in 0..365 inside that year, and together they rebuild the count |
| Calendar.JalaliMonthDay | assets/js/utils.js:17-18 | the month is in 1..12, the day is 1..31 in months 1–6 and 1..30 in months 7–12, and month and day rebuild the day of the year |
| Calendar.JalaliFromDayCount | assets/js/utils.js:9-18 | the result is a real Jalali date whose day number is the count |
| Calendar.GregorianToJalali | assets/js/utils.js:4-20 | for `gy > 1600`: a real Jalali date with month in 1..12 and day in range; its day number is the Gregorian one, one day short from March on in a leap year |
| Calendar.GregorianToJalaliFixed | assets/js/utils.js:4-20 | with the leap-day term restored, the Jalali day number of the result is exactly the Gregorian one |
| Calendar.GregorianYearOfDay | assets/js/utils.js:27-39 | the 400-year, century and four-year reductions give a year and a day inside that year that rebuild the count |
| Calendar.WholeCyclesLocate | assets/js/utils.js:27-28 | `parseInt(days / 146097)` is the 400-year cycle the day lies in: the day falls between the start of the year `1600 + 400 c` and the start of `1600 + 400 (c + 1)`, and `days % 146097` is the day inside that cycle |
| Calendar.YearOfCycleDay | assets/js/utils.js:29-39 | inside one 400-year cycle, the century step with `--days` and `days++` lands on the right year and day |
| Calendar.GregorianYearStartCycle | assets/js/utils.js:27 | 400 Gregorian years are exactly 146097 days and leave leap years where they were |
| Calendar.LaterCenturyYears | assets/js/utils.js:29-33 | in the second to fourth century of a cycle the century year is common and the other multiples of 4 are leap years |
| Calendar.CenturyStep | assets/js/utils.js:29-33 | the century step places a day of a later century at the right year |
| Calendar.WalkMonths | assets/js/utils.js:42-46 | the month walk stops with `gm <= 13`; `gd` stays at least 1, never grows, and loses exactly the lengths of the months passed |
| Calendar.WalkStaysInYear | assets/js/utils.js:41-46 | walking a day of the year stops at a month in 1..12 and a day that exists in it |
| Calendar.JalaliToGregorian | assets/js/utils.js:23-48 | for `jy > 979`: the `new Date` arguments form a real Gregorian date, which therefore does not roll over; its day number is the count of line 26 |
| CalendarRoundTrip.GregorianYearOfDayUnique | assets/js/utils.js:27-39 | the year reduction recovers any year and day of that year |
| CalendarRoundTrip.JalaliYearOfDayUnique | assets/js/utils.js:9-16 | the Jalali year reduction recovers any year and day of that year |
| CalendarRoundTrip.JalaliMonthDayUnique | assets/js/utils.js:17-18 | the Jalali month split recovers any real month and day |
| CalendarRoundTrip.WalkMonthsUnique | assets/js/utils.js:42-46 | the month walk recovers any real Gregorian month and day |
| CalendarRoundTrip.JalaliOrdinalInjective | assets/js/utils.js:26 | two real Jalali dates with the same day count are the same date |
| CalendarRoundTrip.GregorianOrdinalInjective | assets/js/utils.js:41-47 | two real Gregorian dates with the same day number are the same date |
| Calendar.JalaliDayCount | assets/js/utils.js:25-26 | the count of `jalaliToGregorian` is the Jalali day number moved to 1 January 1600 (1 Farvardin 979 is day 79) |
| CalendarRoundTrip.JalaliRoundTripFixed | assets/js/utils.js:23-48 | a real Jalali date after 979, taken to Gregorian and back with the corrected conversion, is unchanged |
| CalendarRoundTrip.BackToGregorian | assets/js/utils.js:23-48 | `jalaliToGregorian` of a real Jalali date is the Gregorian date with the same day |
| CalendarRoundTrip.Farvardin980IsMarch21 | assets/js/utils.js:24-26 | 1 Farvardin 980, the first day `jalaliToGregorian` handles on its `jy > 979` branch, is 21 March 1601, day 445 of the count from 1 January 1600 |
| CalendarRoundTrip.GregorianRoundTripFixed | assets/js/utils.js:4-20 | corrected half: a real Gregorian date from 21 March 1601 (1 Farvardin 980) on, taken to Jalali with the corrected conversion and back, is unchanged |
| CalendarRoundTrip.AsWrittenVersusFixed | assets/js/utils.js:7-8 | as written, the result equals the corrected one except from March on in a leap year, where it is the day before |
| CalendarRoundTrip.AsWrittenRoundTrip | assets/js/utils.js:4-20 | as written, a date from 21 March 1601 on comes back from the round trip exactly when it is not March–December of a leap year; otherwise it comes back as the day before |
| CalendarRoundTrip.DayCountsOfMarch20 | assets/js/utils.js:7-8 | 20 March 2024 counts as day 154862 as written and 154863 corrected |
| CalendarRoundTrip.Nowruz1403AsWritten | assets/js/utils.js:4-20 | as written, 20 March 2024 becomes 1402/12/29 |
| CalendarRoundTrip.Nowruz1403Fixed | assets/js/utils.js:4-20 | corrected, 20 March 2024 becomes 1403/01/01 |
| CalendarRoundTrip.Nowruz1403ToGregorian | assets/js/utils.js:23-48 | 1403/01/01 becomes 20 March 2024 |
| CalendarRoundTrip.LeapDayCollision | assets/js/utils.js:7-8 | as written, 29 February and 1 March 2024 both become 1402/12/10 |
| DateText.JalaliTextShape | assets/js/utils.js:80-83 | `Y/MM/DD` is three digit runs joined by two slashes, with no Persian digit and a digit at each end |
| DateText.FormatJalali | assets/js/utils.js:80-84 | the shown date has no ASCII digit, exactly two slashes, and a Persian digit at each end |
| DateText.JalaliText | assets/js/utils.js:80-83 | the text starts with `String(jy)`, and for a month and day below 100 exactly the six characters `/MM/DD` follow it |
| DateText.FormatDatePersian | assets/js/utils.js:75-84 | the text shows the Jalali date of `gregorianToJalali` as written: its day number is the Gregorian one, less one from March on in a leap year |
| DateText.FormatDatePersianFixed | assets/js/utils.js:7-8 | corrected half: with the leap-day term restored the text shows the Jalali date whose day number is the Gregorian one, and it agrees with `formatDatePersian` outside March–December of a leap year |
| DateText.ParseDateRoute | assets/js/utils.js:91-124 | `parseDate` takes the Jalali branch exactly when the cleaned input has three slash-separated numeric parts and `1300 < year < 1500`; empty input gives `null`; input without three numeric parts goes to the `Date` string parser |
| DateText.CleanDateText | assets/js/utils.js:93 | the text `parseDate` works on has no Persian digit left and is no longer than the input |
| DateText.SlashNumbers | assets/js/utils.js:96-101 | three numbers are read only from a text with exactly two slashes, that is three parts |
| DateText.FormattedIsTrimmed | assets/js/utils.js:93 | a shown date has nothing for `trim` to remove |
| DateText.CleanFormatted | assets/js/utils.js:93 | trimming a shown date and converting its digits gives back the ASCII `Y/MM/DD` text |
| DateText.NumbersOfFormatted | assets/js/utils.js:97-101 | the three parts of `Y/MM/DD` parse back as year, month and day |
| DateText.ParseDateAccepts | assets/js/utils.js:91-136 | `parseDate` returns `null` for empty input, a date for every text of three slash-separated numbers, and otherwise a date exactly when the `Date` string parser accepts the cleaned text |
| DateText.FormatThenParse | assets/js/utils.js:96-112 | a shown Jalali date with a year in 1301..1499 reaches `jalaliToGregorian` as the same year, month and day |
| DateText.DisplayedDateAsWritten | assets/js/utils.js:69-112 | what the program does: a date shown by `formatDatePersian` and typed back into `parseDate` reaches `jalaliToGregorian` and comes back as the day before from March on in a leap year, and as the original date otherwise |
| DateText.DisplayedDateReparsed | assets/js/utils.js:7-8 | corrected half: with the leap-day term of `gregorianToJalali` restored, a shown date typed back unchanged converts back to the date it showed |
| Records.NullIfEmpty | assets/js/learners.js:153 | `x \|\| null` stores `null` exactly for the empty string and the text otherwise |
| Records.TextOrEmpty | assets/js/reminders.js:79 | `x \|\| ''` is non-empty exactly when the column holds text |
| Records.NullIfEmptyHasText | assets/js/installments.js:151 | a stored field holds text exactly when the typed text was not empty, and reading it back gives that text |
| Records.SearchFacts | assets/js/installments.js:238 | the search ignores the case of the term; an empty term keeps every row; a row with no name is dropped otherwise; a name containing the term as typed is kept |
| Records.MatchesSearch | assets/js/installments.js:238 | an empty term keeps every row, and a row with no name is kept only when the lower-cased term is empty |
| Records.LowerKeepsContains | assets/js/learners.js:275 | an occurrence of the term survives lower-casing of both sides |
| Learners.KeepAsciiDigits | assets/js/learners.js:110 | the cleaned phone is all ASCII digits and no longer than the field; one character is kept exactly when it is a digit |
| Learners.KeepAsciiDigitsConcat | assets/js/learners.js:110 | cleaning works piece by piece, so the kept digits stay in their typed order |
| Learners.KeepAsciiDigitsCounts | assets/js/learners.js:110 | cleaning keeps each ASCII digit as often as it occurs and drops every other character |
| Learners.KeepAsciiDigitsOfDigits | assets/js/learners.js:110 | a phone of ASCII digits passes through unchanged |
| Learners.PersianPhoneIsDropped | assets/js/learners.js:110-114 | a phone without ASCII digits, such as one typed in Persian digits, cleans to the empty string |
| Learners.PhoneDigits | assets/js/learners.js:110 | the phone `saveLearner` keeps is all ASCII digits and no longer than the field as typed |
| Learners.RemoveCommas | assets/js/learners.js:134 | the total loses its commas and nothing else; one character is kept exactly when it is not a comma |
| Learners.RemoveCommasConcat | assets/js/learners.js:134 | removing commas works piece by piece, so the other characters keep their order |
| Learners.RemoveCommasCounts | assets/js/learners.js:134 | every character other than the comma survives as often as it occurs |
| Learners.IntOrZero | assets/js/learners.js:135 | `parseInt(x) \|\| 0` is the parsed number, or 0 for `NaN` |
| Learners.OptionalText | assets/js/learners.js:154-158 | an optional field is stored as `null` when it trims to empty, and as trimmed, non-empty text otherwise |
| Learners.ScheduleFrom | assets/js/learners.js:208-226 | the loop from `i` builds one row per number `i..count` in order, each due 30 days after the previous |
| Learners.PlannedInstallment | assets/js/learners.js:212-225 | each generated row is waiting with no payment date, payment note or installment note, is numbered `i` of `count`, and is due `30*(i-1)` days after the start |
| Learners.Schedule | assets/js/learners.js:203-226 | exactly `count` rows numbered 1..count, each carrying the learner's id, name and phone, with `total_installments = count`, due at `start + 30*(i-1)`, waiting, and with no payment or note |
| Learners.ScheduleSpacing | assets/js/learners.js:209-210 | consecutive due dates are exactly 30 days apart |
| Learners.SumOfEqualAmounts | assets/js/learners.js:217 | rows that all carry one amount add up to that amount times their number |
| Learners.ScheduleSum | assets/js/learners.js:147 | with `floor(total/count)` per row the schedule sums to at most the total, and less than `count` short of it |
| Learners.StartDay | assets/js/learners.js:128-132 | the start date yields a day exactly when `parseDate` returns a date |
| Learners.PlanValues | assets/js/learners.js:122-148 | with a plan: empty start date, unreadable start date, total ≤ 0 and count ≤ 0 are refused in that order; otherwise the amount is `floor(total/count)` |
| Learners.LearnerRowOf | assets/js/learners.js:150-164 | the written row has the name, `phone \|\| null` and the plan flag, and fills the plan columns exactly when there is a plan |
| Learners.ScheduleFor | assets/js/learners.js:186-189 | a new learner gets `count` installments with a plan and none without |
| Learners.ContactValues | assets/js/learners.js:104-114 | an empty trimmed name is refused; the phone digits are accepted exactly when they are empty or exactly 11 long |
| Learners.SaveLearner | assets/js/learners.js:100-200 | an empty name is refused and nothing is written; a written phone is `null` or 11 ASCII digits; an edit updates the learner being edited and otherwise a new learner is inserted |
| Learners.SavedPlan | assets/js/learners.js:150-189 | without a plan the plan columns are empty; with one the total and count are positive and the amount is their floor quotient; a new learner gets exactly the schedule `generateInstallments` builds from the written row |
| Learners.SaveRefusals | assets/js/learners.js:104-148 | a form is refused exactly when its name or phone is, or it has a plan that is; name and phone are checked first |
| Learners.PersianPhoneSavedWithout | assets/js/learners.js:110-114 | a named learner without a plan whose phone has no ASCII digit is saved with no phone |
| Learners.InstallmentsOnlyOnInsert | assets/js/learners.js:167-189 | installments are written only for a new learner with a plan, `count` of them, summing to within `count` of the total; an edit writes none |
| Learners.StandingOn | assets/js/learners.js:286-297 | a paid row counts as paid; an unpaid row is overdue exactly when due before today, so a row due today is pending |
| Learners.OwnInstallments | assets/js/learners.js:279 | exactly the installments of this learner are kept, each as often as it occurs |
| Learners.OwnInstallmentsConcat | assets/js/learners.js:279 | filtering works piece by piece, so the learner's installments keep their order |
| Learners.StandingsPartition | assets/js/learners.js:281-299 | every row is counted in exactly one of paid, pending and overdue |
| Learners.TallyLearner | assets/js/learners.js:279-299 | without a plan all three counts are 0; with one they count the paid, pending and overdue rows and add up to the learner's installments |
| Learners.SearchLearners | assets/js/learners.js:274-277 | exactly the learners whose lower-cased name contains the lower-cased term are listed; one learner is listed exactly when it matches |
| Learners.SearchLearnersConcat | assets/js/learners.js:274-277 | the search works piece by piece, so the listed learners keep the store's order and multiplicity |
| Learners.EmptySearchListsAll | assets/js/learners.js:275 | an empty search lists every learner in order |
| Installments.SavePayment | assets/js/installments.js:81-100 | a non-empty readable date marks the row paid on that text; an empty date makes it waiting with no date; an unreadable date is refused with no write; the schedule columns are untouched |
| Installments.DeletePayment | assets/js/installments.js:165-178 | unless cancelled, the row is waiting with no payment date or note; amount, due date, numbers and note are untouched |
| Installments.DeleteUndoesSave | assets/js/installments.js:165-178 | deleting a payment recorded on an untouched waiting row restores that row exactly |
| Installments.LastPaymentWins | assets/js/installments.js:81-100 | saving a payment twice is the same as saving only the second |
| Installments.PrefilledDateAccepted | assets/js/installments.js:75 | the date prefilled by `formatDatePersian` is accepted and becomes the payment date |
| Installments.JalaliTextPays | assets/js/installments.js:89-96 | a trimmed date on the Jalali branch of `parseDate` marks the row paid on that text |
| Installments.SaveInstallmentNote | assets/js/installments.js:145-162 | the note is stored trimmed, or as `null` when empty, and payment state and schedule are untouched |
| Installments.StatusFilterOf | assets/js/installments.js:196 | an empty value means `all`; a value other than the four choices is an unknown filter |
| Installments.DaysUntilDue | assets/js/installments.js:233 | counting the result on from today lands on the due day, so it is negative exactly once the due day has passed |
| Installments.PassesStatus | assets/js/installments.js:243-249 | `all` keeps every row and an unknown value none; `with-note` keeps the rows with a note; `pending` keeps rows due today or later and `overdue` rows due before today, so each row passes exactly one of the two |
| Installments.Listed | assets/js/installments.js:203-249 | a listed row is unpaid, due at most 30 days from today and matches the search; an unknown filter lists no row |
| Installments.ListInstallments | assets/js/installments.js:199-250 | exactly the rows that pass are listed; every listed row is unpaid and due within 30 days or overdue; one row is listed exactly when it passes |
| Installments.ListInstallmentsConcat | assets/js/installments.js:227-250 | the filter works piece by piece, so the listed rows keep the store's order and multiplicity |
| Installments.WaitingOverdueSplit | assets/js/installments.js:243-246 | the pending (`days >= 0`) and overdue (`days < 0`) lists are disjoint and together make up the `all` list |
| Installments.Noted | assets/js/installments.js:247 | exactly the rows with a non-empty note are kept; one row is kept exactly when it has a note |
| Installments.NotedConcat | assets/js/installments.js:247 | selecting the noted rows works piece by piece, so they keep the list's order and multiplicity |
| Installments.WithNoteIsNotedPart | assets/js/installments.js:247 | the `with-note` list is exactly the `all` list's rows with a non-empty note, in order |
| Installments.UnknownFilterListsNothing | assets/js/installments.js:249 | an unknown filter value lists nothing |
| Installments.ListKeepsDueOrder | assets/js/installments.js:204 | rows arriving in due-date order stay in that order after filtering |
| Installments.ViewRow | assets/js/installments.js:262-285 | a row is labelled overdue exactly when `days < 0`; a note gives the row its class whatever its state; the note preview is cut at 50 characters with `...` |
| Installments.FilterAgreesWithLabel | assets/js/installments.js:243-274 | rows of the overdue list are labelled overdue, rows of the pending list waiting, rows of the with-note list carry the note class |
| Installments.ListPayments | assets/js/installments.js:312-334 | exactly the paid rows matching the search are listed; one row is listed exactly when it is paid and matches |
| Installments.ListPaymentsConcat | assets/js/installments.js:329-334 | the filter works piece by piece, so the payments keep the store's order and multiplicity |
| Installments.PaymentsAndDuesDisjoint | assets/js/installments.js:203 | no row is both in the payments list and in the list of dues |
| Installments.PaymentMovesRow | assets/js/installments.js:89-100 | recording a payment moves a row from the dues to the payments; deleting it moves it back when it is due within the window |
| Installments.PaidRowListed | assets/js/installments.js:316 | a paid row is in the payments list and not among the dues |
| Installments.WaitingRowListed | assets/js/installments.js:233-235 | a waiting row is not a payment, and is among the dues when due within 30 days |
| Reminders.StateAt | assets/js/reminders.js:63-75 | completed wins over everything; then sent, even if its time has passed; then not followed up exactly when its time is before now; otherwise waiting |
| Reminders.StateOverTime | assets/js/reminders.js:72-74 | as time passes a waiting reminder can only become not followed up, and the other states stay |
| Reminders.ReminderFilterOf | assets/js/reminders.js:7 | `today` and `completed` pick their filter; every other value lists the open reminders |
| Reminders.Selected | assets/js/reminders.js:22-31 | only the `completed` filter selects completed reminders, and it selects all of them; the `today` filter selects nothing timed outside `[today 00:00, tomorrow 00:00)` |
| Reminders.ListReminders | assets/js/reminders.js:22-31 | exactly the reminders the filter selects are listed; one reminder is listed exactly when it is selected |
| Reminders.ListRemindersConcat | assets/js/reminders.js:11-31 | the selection works piece by piece, so the list keeps the store's `reminder_at` order and multiplicity |
| Reminders.FilterFacts | assets/js/reminders.js:17-31 | the completed list holds only completed reminders and the others none; today's list lies in `[today 00:00, tomorrow 00:00)` |
| Reminders.OpenCompletedSplit | assets/js/reminders.js:27-31 | the open and the completed lists together hold every reminder |
| Reminders.MarkCompleted | assets/js/reminders.js:123-139 | marking sets `completed` and the completion time and keeps every other field |
| Reminders.MarkingMovesReminder | assets/js/reminders.js:123-139 | a marked reminder shows as completed and moves from the open and today lists to the completed list |
| Reminders.DisplayName | assets/js/reminders.js:77 | the learner's current name when there is one, then the name stored with the reminder, then `''` |
| Reminders.DisplayNameFacts | assets/js/reminders.js:44-49 | the shown name is empty only when neither source has a name, and renaming the learner renames the reminder |
| Reminders.DescriptionPreview | assets/js/reminders.js:79-89 | the description's first 50 characters, followed by `...` exactly when it is longer |
| Reminders.DescriptionPreviewShape | assets/js/reminders.js:81-82 | the preview has at most 53 characters and starts like the description |

## Left out

- Data store: every query, insert and update is left out. A store read is a
  sequence given as a parameter, and a write is the record value it would
  write. Store errors, the `if (!user) return` session checks and the
  `user_id` columns are not modelled. Neither is ordering: every list keeps
  the order of its input.
- Page: DOM rendering, modals, toasts, tooltips and `escapeHtml` are left out.
  They only display values the model computes.
- JavaScript `Date`: `setHours`, `toISOString`, `toLocaleTimeString`, time
  zones and daylight-saving time are left out. Installment dates are whole
  day numbers and reminder times are whole timestamps.
  `Installments.DaysUntilDue` is therefore an exact difference of days. The
  first branches of `formatDatePersian` (utils.js:70-73) are left out too:
  an empty, `null` or `undefined` input returns `''` (line 70), and a text
  that `Date` cannot read is returned unchanged (line 73). Both depend on
  `Date` parsing.
- DateText.ParseDateAccepts: the ISO fallback of `parseDate` (utils.js:126-136)
  is the parameter `isoAccepts`. Every triple on the Jalali or the Gregorian
  branch counts as a date, so the range limit of `Date` (about ±275,000
  years) is not modelled. In the program, a Jalali triple far out of range
  (`1400/1/999999999`) makes `toISOString` throw a `RangeError`
  (utils.js:106-111). The program catches it and tries the Gregorian and the
  ISO branches, which fail too, so it returns `null`. The model accepts such
  a triple.
- Numbers: `parseInt`, `Math.floor` and the day arithmetic work on IEEE
  doubles in the program. The model uses unbounded integers, so the loss of
  precision above 2^53 is not modelled.
- Learners.StartDay: the day a parsed start date falls on is the parameter
  `dayOf`. The rollover of `new Date(year, month - 1, day)` on the Gregorian
  branch is not modelled.
- `formatNumber`, `formatDays` and `formatPhoneLink` are left out because they
  delegate to `Intl`.
- `loadLearnerData` is left out. It fills the edit form through `formatNumber`.
- `serializeReminder` is left out. It only escapes quotes for an inline
  handler.
- `assets/js/auth.js`, `assets/js/users.js` and `assets/js/dashboard.js` are
  not part of this model. They are login, HTTP and menu plumbing.
- Calendar.GregorianToJalali: only the `gy > 1600` branch is modelled.
  `gy <= 1600` (utils.js:6-7) is left out because it is unsound for old
  years. There, JavaScript's truncating `parseInt(a / b)` would also differ
  from Dafny's Euclidean division.
- Calendar.JalaliToGregorian: only the `jy > 979` branch is modelled.
  `jy <= 979` (utils.js:24-25) is left out for the same reason. The model also
  requires a non-negative day count, because truncating `%` on a negative
  count does not match Dafny's `%`. This excludes only months or days that are
  hugely negative.
- CalendarRoundTrip.GregorianRoundTripFixed and
  CalendarRoundTrip.AsWrittenRoundTrip: these hold from 21 March 1601 on.
  That day is 1 Farvardin 980, day 445 of the count from 1 January 1600.
  Earlier dates land in Jalali year 979 or before, which only the unmodelled
  `jy <= 979` branch of `jalaliToGregorian` handles.
- Text.LowerChar: the model lower-cases only A–Z. `toLowerCase` also
  lower-cases every other cased letter (À, Σ, Ж and so on), which is not
  modelled. The names and search terms the application handles are Persian,
  which has no case.
- Text.ParseInt: only decimal input is modelled. The `0x` prefix and other
  radix rules of `parseInt` are not modelled.
- Text.Preview: lengths count Unicode code points. JavaScript's `substring`
  counts UTF-16 code units, which differs for characters outside the Basic
  Multilingual Plane.

## Findings

| source | as written | input that shows it | evidently intended | confidence | as-written member | corrected member |
|---|---|---|---|---|---|---|
| assets/js/utils.js:7-8 | the day count of `gregorianToJalali` counts leap years only before `gy`, with no `gm > 2` adjustment for the current year's 29 February | 2024-03-20 (Nowruz) gives 1402/12/29. 2024-02-29 and 2024-03-01 both give 1402/12/10. | from March on in a leap year, also count the current year's leap day, so that 2024-03-20 gives 1403/01/01 and the conversion inverts `jalaliToGregorian` | high, not executed | CalendarRoundTrip.AsWrittenRoundTrip | CalendarRoundTrip.GregorianRoundTripFixed |

The as-written half is `Calendar.GregorianToJalali`. The lemmas
`CalendarRoundTrip.AsWrittenVersusFixed`, `CalendarRoundTrip.Nowruz1403AsWritten`,
`CalendarRoundTrip.LeapDayCollision` and `DateText.DisplayedDateAsWritten`
show the discrepancy. The corrected half is `Calendar.GregorianToJalaliFixed`.
The lemmas `CalendarRoundTrip.GregorianRoundTripFixed`,
`CalendarRoundTrip.JalaliRoundTripFixed` and `CalendarRoundTrip.Nowruz1403Fixed`
prove its properties. `DateText.FormatDatePersian` models the program and
uses the conversion as written. `DateText.FormatDatePersianFixed` uses the
corrected conversion, and for it `DateText.DisplayedDateReparsed` is an exact
round trip.

=== FILE: calendar.dfy ===
/**
  Integer arithmetic of `gregorianToJalali` and `jalaliToGregorian`
  (utils.js). Both conversions count days from a fixed origin and then peel
  off whole cycles of years; each step is stated here against a plain
  day-numbering of its calendar so that the two conversions can be compared.

  Only the branches for Gregorian years after 1600 and Jalali years after
  979 are modelled. On those branches every operand of `parseInt(a / b)` and
  of `%` is non-negative, so JavaScript's truncating division coincides with
  Dafny's Euclidean `/` and `%`.
*/
module Calendar {

  // ===========================================================================
  // Gregorian calendar
  // ===========================================================================

  /** The Gregorian leap-year rule used for `sal_a` (utils.js:41): every
      leap year is a multiple of 4, and every multiple of 400 is leap. */
  function IsGregorianLeap(y: int): (leap: bool)
    ensures leap ==> y % 4 == 0
    ensures y % 400 == 0 ==> leap
  {
    (y % 4 == 0 && y % 100 != 0) || y % 400 == 0
  }

  function GregorianYearLength(y: int): nat {
    if IsGregorianLeap(y) then 366 else 365
  }

  /** `sal_a`: entry 0 is a sentinel 0, entries 1..12 are month lengths. */
  function GregorianMonthTable(gy: int): (t: seq<nat>)
    ensures |t| == 13 && t[0] == 0
    ensures forall m :: 1 <= m <= 12 ==> 28 <= t[m] <= 31
  {
    [0, 31, if IsGregorianLeap(gy) then 29 else 28, 31, 30, 31, 30, 31, 31, 30, 31, 30, 31]
  }

  /** Days in the months before month `m` (0 for `m <= 1`), summed from the
      month table. */
  function DaysBeforeGregorianMonth(gy: int, m: nat): nat
    requires m <= 13
  {
    if m <= 1 then 0
    else DaysBeforeGregorianMonth(gy, m - 1) + GregorianMonthTable(gy)[m - 1]
  }

  /** February has 29 days exactly in leap years and 28 otherwise. */
  lemma FebruaryLength(gy: int)
    ensures GregorianMonthTable(gy)[2] == 29 <==> IsGregorianLeap(gy)
    ensures GregorianMonthTable(gy)[2] == 28 <==> !IsGregorianLeap(gy)
  {
  }

  /** The twelve month lengths add up to the length of the year. */
  lemma MonthTableSumsToYear(gy: int)
    ensures DaysBeforeGregorianMonth(gy, 13) == GregorianYearLength(gy)
  {
    CumulativeDaysAgree(gy, 12);
  }

  /** `g_d_m` (utils.js:5): days before each month in a common year. */
  const CumulativeDays: seq<nat> := [0, 31, 59, 90, 120, 151, 181, 212, 243, 273, 304, 334]

  /** `g_d_m` agrees with `sal_a` in a common year, and falls one day short
      for the months after February of a leap year. */
  lemma CumulativeDaysAgree(gy: int, m: nat)
    requires 1 <= m <= 12
    ensures DaysBeforeGregorianMonth(gy, m)
         == CumulativeDays[m - 1] + (if m > 2 && IsGregorianLeap(gy) then 1 else 0)
  {
    var t := GregorianMonthTable(gy);
    var leap := if IsGregorianLeap(gy) then 1 else 0;
    assert DaysBeforeGregorianMonth(gy, 1) == 0;
    assert DaysBeforeGregorianMonth(gy, 2) == 31;
    assert DaysBeforeGregorianMonth(gy, 3) == 59 + leap;
    assert DaysBeforeGregorianMonth(gy, 4) == 90 + leap;
    assert DaysBeforeGregorianMonth(gy, 5) == 120 + leap;
    assert DaysBeforeGregorianMonth(gy, 6) == 151 + leap;
    assert DaysBeforeGregorianMonth(gy, 7) == 181 + leap;
    assert DaysBeforeGregorianMonth(gy, 8) == 212 + leap;
    assert DaysBeforeGregorianMonth(gy, 9) == 243 + leap;
    assert DaysBeforeGregorianMonth(gy, 10) == 273 + leap;
    assert DaysBeforeGregorianMonth(gy, 11) == 304 + leap;
    assert DaysBeforeGregorianMonth(gy, 12) == 334 + leap;
  }

  /** Leap years among 1600 .. 1600+k-1: the three `parseInt` terms of
      utils.js:8 (multiples of 4, minus multiples of 100, plus multiples of
      400, each counted from 1600). */
  function LeapYearsBefore(k: nat): int {
    (k + 3) / 4 - (k + 99) / 100 + (k + 399) / 400
  }

  /** The leap-year count of utils.js:8 and the rule of utils.js:41 agree:
      from 1600 on, counting one more year raises the count by one exactly
      when that year is leap. */
  lemma LeapCountAgrees(y: int)
    requires y >= 1600
    ensures IsGregorianLeap(y) <==> LeapYearsBefore(y - 1599) == LeapYearsBefore(y - 1600) + 1
  {
    var k := y - 1600;
    assert (k + 4) / 4 - (k + 3) / 4 == (if k % 4 == 0 then 1 else 0);
    assert (k + 100) / 100 - (k + 99) / 100 == (if k % 100 == 0 then 1 else 0);
    assert (k + 400) / 400 - (k + 399) / 400 == (if k % 400 == 0 then 1 else 0);
    assert y % 4 == k % 4 && y % 100 == k % 100 && y % 400 == k % 400;
  }

  /** Days from 1 January 1600 to 1 January of year 1600+k, in closed form. */
  function GregorianYearStart(k: nat): int {
    365 * k + LeapYearsBefore(k)
  }

  /** Days from 1 January 1600 to 1 January of year 1600+k, year by year. */
  function DaysInGregorianYears(k: nat): nat {
    if k == 0 then 0 else DaysInGregorianYears(k - 1) + GregorianYearLength(1600 + k - 1)
  }

  /** Each step of the closed form adds exactly the length of one year. */
  lemma GregorianYearStartStep(k: nat)
    ensures GregorianYearStart(k + 1) == GregorianYearStart(k) + GregorianYearLength(1600 + k)
  {
    assert (k + 4) / 4 - (k + 3) / 4 == (if k % 4 == 0 then 1 else 0);
    assert (k + 100) / 100 - (k + 99) / 100 == (if k % 100 == 0 then 1 else 0);
    assert (k + 400) / 400 - (k + 399) / 400 == (if k % 400 == 0 then 1 else 0);
    assert (1600 + k) % 4 == k % 4;
    assert (1600 + k) % 100 == k % 100;
    assert (1600 + k) % 400 == k % 400;
  }

  /** The closed form counts the same days as adding up year lengths. */
  lemma {:induction false} GregorianYearStartIsSum(k: nat)
    ensures GregorianYearStart(k) == DaysInGregorianYears(k)
  {
    if k > 0 {
      GregorianYearStartIsSum(k - 1);
      GregorianYearStartStep(k - 1);
    }
  }

  /** A year begins after every earlier year has ended. */
  lemma {:induction false} GregorianYearStartMonotone(j: nat, k: nat)
    requires j < k
    ensures GregorianYearStart(j) + GregorianYearLength(1600 + j) <= GregorianYearStart(k)
    decreases k - j
  {
    GregorianYearStartStep(j);
    if j + 1 < k {
      GregorianYearStartMonotone(j + 1, k);
    }
  }

  /** A Gregorian calendar date. */
  datatype GregorianDate = GregorianDate(year: int, month: int, day: int)

  /** The date is a real Gregorian date from 1600 on. */
  predicate ValidGregorian(g: GregorianDate) {
    g.year >= 1600 && 1 <= g.month <= 12 && 1 <= g.day <= GregorianMonthTable(g.year)[g.month]
  }

  /** Days since 1 January 1600 (that day is 0). */
  function GregorianOrdinal(gy: int, gm: int, gd: int): int
    requires gy >= 1600 && 1 <= gm <= 12
  {
    GregorianYearStart(gy - 1600) + DaysBeforeGregorianMonth(gy, gm) + gd - 1
  }

  // ===========================================================================
  // The four-year step shared by both conversions
  // ===========================================================================

  /** The step `y += 4 * parseInt(days / 1461); days %= 1461; if (days > 365)
      { y += parseInt((days - 1) / 365); days = (days - 1) % 365; }`
      (utils.js:11-16 and utils.js:34-39). It reads `x` as days into a run
      of four-year groups whose first year has 366 days, and returns the
      whole years and the zero-based day inside the last one. */
  function FourYearSplit(x: nat): (r: (nat, nat))
    ensures x == 365 * r.0 + (r.0 + 3) / 4 + r.1
    ensures r.1 < (if r.0 % 4 == 0 then 366 else 365)
    ensures r.0 / 4 == x / 1461
  {
    var groups := x / 1461;
    var yd := YearOfGroup(x % 1461);
    GroupQuarters(groups, yd.0);
    (4 * groups + yd.0, yd.1)
  }

  /** The `if (days > 365)` step inside one four-year group of 1461 days:
      the first year has 366 days, the other three 365. */
  function YearOfGroup(rest: nat): (r: (nat, nat))
    requires rest < 1461
    ensures r.0 <= 3
    ensures rest == 365 * r.0 + (if r.0 == 0 then 0 else 1) + r.1
    ensures r.1 < (if r.0 == 0 then 366 else 365)
  {
    if rest > 365 then ((rest - 1) / 365, (rest - 1) % 365) else (0, rest)
  }

  /** Year `4 g + e` of a run of four-year groups lies in group `g`, and
      `e` is its place in the group. */
  lemma GroupQuarters(g: nat, e: nat)
    requires e <= 3
    ensures (4 * g + e + 3) / 4 == g + (if e == 0 then 0 else 1)
    ensures (4 * g + e) / 4 == g && (4 * g + e) % 4 == e
  {
  }

  // ===========================================================================
  // Jalali (Solar Hijri) calendar, as the two conversions number it
  // ===========================================================================

  /** Leap years before year y, counting years from 979: eight per 33-year
      cycle plus one for every started four-year group of the current cycle
      (the two `parseInt` terms of utils.js:26). */
  function JalaliLeapsBefore(y: nat): nat {
    (y / 33) * 8 + ((y % 33) + 3) / 4
  }

  /** Days from 1 Farvardin 979 to 1 Farvardin of year 979+y. */
  function JalaliYearStart(y: nat): nat {
    365 * y + JalaliLeapsBefore(y)
  }

  /** Year 979+y is a leap year of the 33-year cycle the code follows: the
      years 0, 4, ..., 28 of each cycle. */
  predicate IsJalaliLeap(y: nat) {
    (y % 33) % 4 == 0 && y % 33 != 32
  }

  function JalaliYearLength(y: nat): nat {
    if IsJalaliLeap(y) then 366 else 365
  }

  /** Each step of the closed form adds exactly the length of one year. */
  lemma JalaliYearStartStep(y: nat)
    ensures JalaliYearStart(y + 1) == JalaliYearStart(y) + JalaliYearLength(y)
  {
    if y % 33 == 32 {
      assert (y + 1) / 33 == y / 33 + 1 && (y + 1) % 33 == 0;
    } else {
      assert (y + 1) / 33 == y / 33 && (y + 1) % 33 == y % 33 + 1;
    }
  }

  /** A year begins after every earlier year has ended. */
  lemma {:induction false} JalaliYearStartMonotone(j: nat, k: nat)
    requires j < k
    ensures JalaliYearStart(j) + JalaliYearLength(j) <= JalaliYearStart(k)
    decreases k - j
  {
    JalaliYearStartStep(j);
    if j + 1 < k {
      JalaliYearStartMonotone(j + 1, k);
    }
  }

  /** Days before month `jm`: 31-day months 1..6, then 30-day months
      (the conditional term of utils.js:26). */
  function JalaliMonthOffset(jm: int): int {
    if jm < 7 then (jm - 1) * 31 else (jm - 7) * 30 + 186
  }

  /** The month lengths the conversions assume: 31 for months 1..6 and 30
      for months 7..12 (the last month has 30 days only in a leap year). */
  function JalaliMonthLength(jm: int): nat {
    if jm <= 6 then 31 else 30
  }

  /** A Jalali calendar date. */
  datatype JalaliDate = JalaliDate(year: int, month: int, day: int)

  /** The date is a real date from 979 on in the numbering the code uses:
      the month exists, the day exists in that month, and the last month
      has a 30th day only in a leap year. */
  predicate ValidJalali(j: JalaliDate) {
    && j.year >= 979 && 1 <= j.month <= 12 && 1 <= j.day <= JalaliMonthLength(j.month)
    && JalaliMonthOffset(j.month) + j.day - 1 < JalaliYearLength(j.year - 979)
  }

  /** Days since 1 Farvardin 979 (that day is 0). */
  function JalaliOrdinal(jy: int, jm: int, jd: int): int
    requires jy >= 979
  {
    JalaliYearStart(jy - 979) + JalaliMonthOffset(jm) + jd - 1
  }

  // ===========================================================================
  // gregorianToJalali (utils.js:4-20), branch gy > 1600
  // ===========================================================================

  /** The day count of utils.js:7-8, exactly as written: the leap-year terms
      count the years before `gy` only, so from March on in a leap year the
      count is one less than the corrected count below. */
  function GregorianDayCount(gy: int, gm: int, gd: int): (days: int)
    requires gy > 1600 && 1 <= gm <= 12
    ensures days == GregorianDayCountFixed(gy, gm, gd) - (if gm > 2 && IsGregorianLeap(gy) then 1 else 0)
  {
    GregorianYearStartStep(gy - 1600);
    assert 1600 + (gy - 1600) == gy;
    var gy2 := gy - 1600;
    365 * gy2 + LeapYearsBefore(gy2) - 80 + gd + CumulativeDays[gm - 1]
  }

  /** The day count as the published form of the algorithm has it: for months
      after February the leap-year terms also count the current year. It is
      exactly the Gregorian day number shifted so that 1 Farvardin 979
      (20 March 1600) is day 0. */
  function GregorianDayCountFixed(gy: int, gm: int, gd: int): (days: int)
    requires gy > 1600 && 1 <= gm <= 12
    ensures days == GregorianOrdinal(gy, gm, gd) - 79
  {
    CumulativeDaysAgree(gy, gm);
    GregorianYearStartStep(gy - 1600);
    assert 1600 + (gy - 1600) == gy;
    var gy2 := gy - 1600;
    var leapYear := if gm > 2 then gy2 + 1 else gy2;
    365 * gy2 + LeapYearsBefore(leapYear) - 80 + gd + CumulativeDays[gm - 1]
  }

  /** The code as written is one day behind the Gregorian day numbering from
      March on in a leap year, and exact otherwise. */
  lemma GregorianDayCountAsWritten(gy: int, gm: int, gd: int)
    requires gy > 1600 && 1 <= gm <= 12
    ensures GregorianDayCount(gy, gm, gd)
         == GregorianOrdinal(gy, gm, gd) - 79 - (if gm > 2 && IsGregorianLeap(gy) then 1 else 0)
  {
    CumulativeDaysAgree(gy, gm);
  }

  /** Year residue of utils.js:9-16: 33-year cycles of 12053 days, then
      four-year groups. Returns whole years since 979 and the zero-based day
      of the year, which lies in 0..365. */
  function JalaliYearOfDay(days: nat): (r: (nat, nat))
    ensures days == JalaliYearStart(r.0) + r.1
    ensures r.1 < JalaliYearLength(r.0) && r.1 <= 365
    ensures r.0 >= 33 * (days / 12053)
  {
    var cycles := days / 12053;
    var x := days % 12053;
    var yd := FourYearSplit(x);
    assert yd.0 < 33;
    assert (33 * cycles + yd.0) / 33 == cycles && (33 * cycles + yd.0) % 33 == yd.0;
    (33 * cycles + yd.0, yd.1)
  }

  /** Month and day of utils.js:17-18, from the zero-based day of the year. */
  function JalaliMonthDay(r: nat): (md: (int, int))
    requires r <= 365
    ensures 1 <= md.0 <= 12 && 1 <= md.1 <= JalaliMonthLength(md.0)
    ensures JalaliMonthOffset(md.0) + md.1 - 1 == r
  {
    if r < 186 then (1 + r / 31, 1 + r % 31)
    else (7 + (r - 186) / 30, 1 + (r - 186) % 30)
  }

  /** Turns a count of days since 1 Farvardin 979 into a Jalali date. */
  function JalaliFromDayCount(days: nat): (j: JalaliDate)
    ensures ValidJalali(j)
    ensures JalaliOrdinal(j.year, j.month, j.day) == days
  {
    var yr := JalaliYearOfDay(days);
    var md := JalaliMonthDay(yr.1);
    JalaliDate(979 + yr.0, md.0, md.1)
  }

  /** `gregorianToJalali(gy, gm, gd)` for `gy > 1600`, as written. The month
      is in 1..12, the day in 1..31 for months 1..6 and 1..30 for months
      7..12, and the result's Jalali day number is the Gregorian one, except
      one day short from March on in a Gregorian leap year. */
  function GregorianToJalali(gy: int, gm: int, gd: int): (j: JalaliDate)
    requires gy > 1600 && 1 <= gm <= 12 && gd >= 1
    ensures j.year >= 979 && 1 <= j.month <= 12
    ensures 1 <= j.month <= 6 ==> 1 <= j.day <= 31
    ensures 7 <= j.month <= 12 ==> 1 <= j.day <= 30
    ensures ValidJalali(j)
    ensures JalaliOrdinal(j.year, j.month, j.day)
         == GregorianOrdinal(gy, gm, gd) - 79 - (if gm > 2 && IsGregorianLeap(gy) then 1 else 0)
  {
    GregorianDayCountAsWritten(gy, gm, gd);
    assert LeapYearsBefore(gy - 1600) >= 0;
    JalaliFromDayCount(GregorianDayCount(gy, gm, gd))
  }

  /** `gregorianToJalali` with the leap-day term corrected: the Jalali day
      number of the result is exactly the Gregorian one. */
  function GregorianToJalaliFixed(gy: int, gm: int, gd: int): (j: JalaliDate)
    requires gy > 1600 && 1 <= gm <= 12 && gd >= 1
    ensures ValidJalali(j)
    ensures JalaliOrdinal(j.year, j.month, j.day) == GregorianOrdinal(gy, gm, gd) - 79
  {
    assert LeapYearsBefore(gy - 1600) >= 0;
    JalaliFromDayCount(GregorianDayCountFixed(gy, gm, gd))
  }

  // ===========================================================================
  // jalaliToGregorian (utils.js:23-48), branch jy > 979
  // ===========================================================================

  /** The day count of utils.js:25-26: days since 1 January 1600 of the
      Gregorian day that the Jalali date falls on, that is the Jalali day
      number moved by the 79 days from 1 January to 20 March 1600. */
  function JalaliDayCount(jy: int, jm: int, jd: int): (days: int)
    requires jy > 979
    ensures days == JalaliOrdinal(jy, jm, jd) + 79
  {
    var y := jy - 979;
    365 * y + (y / 33) * 8 + ((y % 33) + 3) / 4 + 78 + jd + JalaliMonthOffset(jm)
  }

  /** Year residue of utils.js:27-39: 400-year cycles of 146097 days, then
      centuries (the first of a cycle has 36525 days, the others 36524, and
      their first year is common, which the `days++` accounts for), then
      four-year groups. Returns whole years since 1600 and the zero-based day
      of the year. */
  function GregorianYearOfDay(days: nat): (r: (nat, nat))
    ensures days == GregorianYearStart(r.0) + r.1
    ensures r.1 < GregorianYearLength(1600 + r.0)
  {
    var cycles := WholeCycles(days);
    var yd := YearOfCycleDay(days % 146097);
    AddCycles(days, cycles, yd.0, yd.1);
    (400 * cycles + yd.0, yd.1)
  }

  /** `parseInt(days / 146097)` of utils.js:27: whole 400-year cycles of
      146097 days in `days` (`WholeCyclesLocate` places the day inside its
      cycle). */
  function WholeCycles(days: nat): (c: nat)
    ensures days == 146097 * c + days % 146097
  {
    days / 146097
  }

  /** `parseInt(days / 146097)` is the 400-year cycle the day lies in: the
      cycle starts with the year `1600 + 400 c` and ends before the year
      `1600 + 400 (c + 1)`, and `days % 146097` is the day inside it. */
  lemma WholeCyclesLocate(days: nat)
    ensures var c := WholeCycles(days);
            && GregorianYearStart(400 * c) <= days < GregorianYearStart(400 * (c + 1))
            && days == GregorianYearStart(400 * c) + days % 146097
  {
    var c := WholeCycles(days);
    CycleStart(c);
    CycleStart(c + 1);
  }

  /** The year `1600 + 400 c` starts `146097 c` days after 1 January 1600. */
  lemma CycleStart(c: nat)
    ensures GregorianYearStart(400 * c) == 146097 * c
  {
    assert (400 * c + 3) / 4 == 100 * c;
    assert (400 * c + 99) / 100 == 4 * c;
    assert (400 * c + 399) / 400 == c;
  }

  /** Whole 400-year cycles put back in front of a day inside a cycle. */
  lemma AddCycles(days: nat, cycles: nat, k: nat, r: nat)
    requires days == 146097 * cycles + days % 146097
    requires days % 146097 == GregorianYearStart(k) + r
    requires r < GregorianYearLength(1600 + k)
    ensures days == GregorianYearStart(400 * cycles + k) + r
    ensures r < GregorianYearLength(1600 + (400 * cycles + k))
  {
    GregorianYearStartCycle(cycles, k);
  }

  /** The part of the year residue inside one 400-year cycle
      (utils.js:29-39): the day `d` of the cycle as whole years since the
      cycle began and the zero-based day of the year. */
  function YearOfCycleDay(d: nat): (r: (nat, nat))
    requires d < 146097
    ensures d == GregorianYearStart(r.0) + r.1
    ensures r.1 < GregorianYearLength(1600 + r.0)
  {
    if d > 36524 then
      var centuries := (d - 1) / 36524;
      var e := (d - 1) % 36524;
      var yr := FourYearSplit(if e >= 365 then e + 1 else e);
      CenturyStep(d, yr.0, yr.1);
      (100 * centuries + yr.0, yr.1)
    else
      var yr := FourYearSplit(d);
      FirstCenturyStep(d, yr.0, yr.1);
      yr
  }

  /** Year start of a year `400 c + k`: whole 400-year cycles are 146097 days. */
  lemma GregorianYearStartCycle(c: nat, k: nat)
    ensures GregorianYearStart(400 * c + k) == 146097 * c + GregorianYearStart(k)
    ensures GregorianYearLength(1600 + (400 * c + k)) == GregorianYearLength(1600 + k)
  {
    assert (400 * c + k + 3) / 4 == 100 * c + (k + 3) / 4;
    assert (400 * c + k + 99) / 100 == 4 * c + (k + 99) / 100;
    assert (400 * c + k + 399) / 400 == c + (k + 399) / 400;
    assert (1600 + (400 * c + k)) % 4 == (1600 + k) % 4;
    assert (1600 + (400 * c + k)) % 100 == (1600 + k) % 100;
    assert (1600 + (400 * c + k)) % 400 == (1600 + k) % 400;
  }

  /** Year starts inside the first century of a cycle: every fourth year,
      starting with the century year itself, is a leap year. */
  lemma FirstCenturyYears(y: nat)
    requires y <= 99
    ensures GregorianYearStart(y) == 365 * y + (y + 3) / 4
    ensures IsGregorianLeap(1600 + y) <==> y % 4 == 0
  {
    if y > 0 {
      assert (y + 99) / 100 == 1 && (y + 399) / 400 == 1;
    }
    assert (1600 + y) % 400 == y;
    assert (1600 + y) % 100 == y;
    assert (1600 + y) % 4 == y % 4;
  }

  /** Year starts inside a later century of a cycle: the century year is
      common, the other multiples of four are leap years. */
  lemma LaterCenturyYears(s: nat, y: nat)
    requires 1 <= s <= 3 && y <= 99
    ensures GregorianYearStart(100 * s + y)
         == 36524 * s + 365 * y + (y + 3) / 4 + (if y == 0 then 1 else 0)
    ensures IsGregorianLeap(1600 + 100 * s + y) <==> y % 4 == 0 && y != 0
  {
    var k := 100 * s + y;
    assert (k + 3) / 4 == 25 * s + (y + 3) / 4;
    assert (k + 399) / 400 == 1;
    if y == 0 {
      assert (k + 99) / 100 == s;
      assert (1600 + k) % 400 != 0 && (1600 + k) % 100 == 0;
    } else {
      assert (k + 99) / 100 == s + 1;
      assert (1600 + k) % 100 != 0 && (1600 + k) % 4 == y % 4;
    }
  }

  /** Four-year groups filling at most a century cover at most 100 years. */
  lemma CenturyBound(x: nat, y: nat, r: nat)
    requires x <= 36524 && x == 365 * y + (y + 3) / 4 + r
    ensures y <= 99
  {
    if y >= 100 {
      assert (y + 3) / 4 >= 25;
    }
  }

  /** The first century of a 400-year cycle. */
  lemma FirstCenturyStep(d: nat, y: nat, r: nat)
    requires d <= 36524
    requires d == 365 * y + (y + 3) / 4 + r
    requires r < (if y % 4 == 0 then 366 else 365)
    ensures d == GregorianYearStart(y) + r
    ensures r < GregorianYearLength(1600 + y)
  {
    CenturyBound(d, y, r);
    FirstCenturyYears(y);
  }

  /** A later century of a 400-year cycle: its first year is common, so the
      four-year groups start one day later. */
  lemma CenturyStep(d: nat, y: nat, r: nat)
    requires 36524 < d < 146097
    requires var e := (d - 1) % 36524;
             var x := if e >= 365 then e + 1 else e;
             x == 365 * y + (y + 3) / 4 + r
    requires r < (if y % 4 == 0 then 366 else 365)
    ensures (d - 1) / 36524 >= 1
    ensures d == GregorianYearStart(100 * ((d - 1) / 36524) + y) + r
    ensures r < GregorianYearLength(1600 + (100 * ((d - 1) / 36524) + y))
  {
    var centuries := (d - 1) / 36524;
    var e := (d - 1) % 36524;
    assert d == 36524 * centuries + e + 1 && 1 <= centuries <= 3;
    var x := if e >= 365 then e + 1 else e;
    CenturyBound(x, y, r);
    assert e < 365 <==> y == 0;
    assert 1600 + (100 * centuries + y) == 1600 + 100 * centuries + y;
    LaterCenturyYears(centuries, y);
  }

  /** Days before month `m` of year `gy`, for the month walk. */
  function MonthsBefore(gy: int, from: nat, to: nat): int
    requires from <= to <= 13
  {
    DaysBeforeGregorianMonth(gy, to) - DaysBeforeGregorianMonth(gy, from)
  }

  /** The month walk of utils.js:42-46 from month `gm`: subtract month lengths
      while the day exceeds the current month. It stops at a month in
      `gm..13`, never raises the day, keeps it at least 1, and subtracts
      exactly the lengths of the months it passed. */
  function WalkMonths(gy: int, gm: nat, gd: int): (r: (nat, int))
    requires gm <= 13
    ensures gm <= r.0 <= 13
    ensures gd >= 1 ==> 1 <= r.1 <= gd
    ensures gm >= 1 ==> gd - r.1 == MonthsBefore(gy, gm, r.0)
    ensures gm == 0 ==> gd - r.1 == DaysBeforeGregorianMonth(gy, r.0)
    ensures r.0 < 13 ==> r.1 <= GregorianMonthTable(gy)[r.0]
    decreases 13 - gm
  {
    var t := GregorianMonthTable(gy);
    if gm < 13 && gd > t[gm] then WalkMonths(gy, gm + 1, gd - t[gm]) else (gm, gd)
  }

  /** `jalaliToGregorian(jy, jm, jd)` for `jy > 979`, as the `(year, month,
      day)` passed to `new Date`. The month is always in 1..12 (the walk
      never runs off the year), so the `Date` constructor receives a real
      date and does not roll it over; its day number is the count of
      utils.js:26. */
  function JalaliToGregorian(jy: int, jm: int, jd: int): (g: GregorianDate)
    requires jy > 979 && JalaliDayCount(jy, jm, jd) >= 0
    ensures ValidGregorian(g)
    ensures GregorianOrdinal(g.year, g.month, g.day) == JalaliDayCount(jy, jm, jd)
  {
    var yd := GregorianYearOfDay(JalaliDayCount(jy, jm, jd));
    var gy := 1600 + yd.0;
    WalkStaysInYear(gy, yd.1);
    assert gy - 1600 == yd.0;
    var md := WalkMonths(gy, 0, yd.1 + 1);
    GregorianDate(gy, md.0, md.1)
  }

  /** Walking a day of the year through the months ends at a real month and
      day whose days before it add up to that day. */
  lemma WalkStaysInYear(gy: int, doy: nat)
    requires doy < GregorianYearLength(gy)
    ensures var md := WalkMonths(gy, 0, doy + 1);
            && 1 <= md.0 <= 12 && 1 <= md.1 <= GregorianMonthTable(gy)[md.0]
            && DaysBeforeGregorianMonth(gy, md.0) + md.1 == doy + 1
  {
    MonthTableSumsToYear(gy);
  }
}

=== FILE: calendar_roundtrip.dfy ===
/**
  How `gregorianToJalali` and `jalaliToGregorian` relate. With the leap-day
  term corrected, the two conversions are mutually inverse on every real
  date of their modelled ranges; as written, `gregorianToJalali` lands one
  day early from March on in every Gregorian leap year, and nowhere else.
*/
module CalendarRoundTrip {
  import opened Calendar

  // ---------------------------------------------------------------------------
  // Uniqueness of the year and month decompositions
  // ---------------------------------------------------------------------------

  /** A day written as "start of Gregorian year k plus r days into it" is
      split back into exactly k and r. */
  lemma GregorianYearOfDayUnique(k: nat, r: nat)
    requires r < GregorianYearLength(1600 + k)
    ensures GregorianYearStart(k) + r >= 0
    ensures var yd := GregorianYearOfDay(GregorianYearStart(k) + r);
            yd.0 == k && yd.1 == r
  {
    GregorianYearStartIsSum(k);
    var yd := GregorianYearOfDay(GregorianYearStart(k) + r);
    if yd.0 < k {
      GregorianYearStartMonotone(yd.0, k);
    } else if k < yd.0 {
      GregorianYearStartMonotone(k, yd.0);
    }
  }

  /** A day written as "start of Jalali year y plus r days into it" is split
      back into exactly y and r. */
  lemma JalaliYearOfDayUnique(y: nat, r: nat)
    requires r < JalaliYearLength(y)
    ensures var yd := JalaliYearOfDay(JalaliYearStart(y) + r);
            yd.0 == y && yd.1 == r
  {
    var yd := JalaliYearOfDay(JalaliYearStart(y) + r);
    if yd.0 < y {
      JalaliYearStartMonotone(yd.0, y);
    } else if y < yd.0 {
      JalaliYearStartMonotone(y, yd.0);
    }
  }

  /** The month split recovers any real month and day from its day of the
      year. */
  lemma JalaliMonthDayUnique(jm: int, jd: int)
    requires 1 <= jm <= 12 && 1 <= jd <= JalaliMonthLength(jm)
    ensures 0 <= JalaliMonthOffset(jm) + jd - 1 <= 365
    ensures var md := JalaliMonthDay(JalaliMonthOffset(jm) + jd - 1);
            md.0 == jm && md.1 == jd
  {
    if jm < 7 {
      assert (31 * (jm - 1) + jd - 1) / 31 == jm - 1;
      assert (31 * (jm - 1) + jd - 1) % 31 == jd - 1;
    } else {
      assert (30 * (jm - 7) + jd - 1) / 30 == jm - 7;
      assert (30 * (jm - 7) + jd - 1) % 30 == jd - 1;
    }
  }

  /** Later months start after earlier months end. */
  lemma {:induction false} MonthsBeforeMonotone(gy: int, m: nat, m': nat)
    requires 1 <= m < m' <= 13
    ensures DaysBeforeGregorianMonth(gy, m) + GregorianMonthTable(gy)[m]
         <= DaysBeforeGregorianMonth(gy, m')
    decreases m' - m
  {
    if m + 1 < m' {
      MonthsBeforeMonotone(gy, m + 1, m');
    }
  }

  /** A real day of a month lies inside the year. */
  lemma DayOfYearInRange(gy: int, gm: int, gd: int)
    requires 1 <= gm <= 12 && 1 <= gd <= GregorianMonthTable(gy)[gm]
    ensures DaysBeforeGregorianMonth(gy, gm) + gd <= GregorianYearLength(gy)
  {
    MonthTableSumsToYear(gy);
    if gm < 12 {
      MonthsBeforeMonotone(gy, gm, 13);
    }
  }

  /** The month walk recovers any real month and day from its day of the
      year. */
  lemma WalkMonthsUnique(gy: int, gm: int, gd: int)
    requires 1 <= gm <= 12 && 1 <= gd <= GregorianMonthTable(gy)[gm]
    ensures var r := WalkMonths(gy, 0, DaysBeforeGregorianMonth(gy, gm) + gd);
            r.0 == gm && r.1 == gd
  {
    var n := DaysBeforeGregorianMonth(gy, gm) + gd;
    var r := WalkMonths(gy, 0, n);
    if r.0 < gm {
      MonthEndsBefore(gy, r.0, gm);
      assert false;
    } else if gm < r.0 {
      MonthsBeforeMonotone(gy, gm, r.0);
      assert false;
    }
    assert n - r.1 == DaysBeforeGregorianMonth(gy, r.0);
  }

  /** Month `m` (or the sentinel month 0) ends before a later month begins. */
  lemma MonthEndsBefore(gy: int, m: nat, m': nat)
    requires m < m' <= 13
    ensures DaysBeforeGregorianMonth(gy, m) + GregorianMonthTable(gy)[m] <= DaysBeforeGregorianMonth(gy, m')
  {
    if m >= 1 {
      MonthsBeforeMonotone(gy, m, m');
    }
  }

  // ---------------------------------------------------------------------------
  // Day numbers identify dates
  // ---------------------------------------------------------------------------

  /** Two real Jalali dates with the same day number are the same date: a
      later year starts after the earlier one ends, and a later month
      starts after the earlier one ends. */
  lemma JalaliOrdinalInjective(a: JalaliDate, b: JalaliDate)
    requires ValidJalali(a) && ValidJalali(b)
    requires JalaliOrdinal(a.year, a.month, a.day) == JalaliOrdinal(b.year, b.month, b.day)
    ensures a == b
  {
    var ra := JalaliMonthOffset(a.month) + a.day - 1;
    var rb := JalaliMonthOffset(b.month) + b.day - 1;
    SameJalaliYear(a.year - 979, b.year - 979, ra, rb);
    assert ra == rb;
    JalaliMonthDayUnique(a.month, a.day);
    JalaliMonthDayUnique(b.month, b.day);
  }

  /** Two days inside their Jalali years with the same day number lie in the
      same year. */
  lemma SameJalaliYear(ya: nat, yb: nat, ra: int, rb: int)
    requires 0 <= ra < JalaliYearLength(ya) && 0 <= rb < JalaliYearLength(yb)
    requires JalaliYearStart(ya) + ra == JalaliYearStart(yb) + rb
    ensures ya == yb
  {
    if ya < yb {
      JalaliYearStartMonotone(ya, yb);
    } else if yb < ya {
      JalaliYearStartMonotone(yb, ya);
    }
  }

  /** Two real Gregorian dates with the same day number are the same date,
      by the same argument. */
  lemma GregorianOrdinalInjective(a: GregorianDate, b: GregorianDate)
    requires ValidGregorian(a) && ValidGregorian(b)
    requires GregorianOrdinal(a.year, a.month, a.day) == GregorianOrdinal(b.year, b.month, b.day)
    ensures a == b
  {
    DayOfYearInRange(a.year, a.month, a.day);
    DayOfYearInRange(b.year, b.month, b.day);
    SameYearStart(a.year, b.year,
      DaysBeforeGregorianMonth(a.year, a.month) + a.day - 1,
      DaysBeforeGregorianMonth(b.year, b.month) + b.day - 1);
    if a.month < b.month {
      MonthsBeforeMonotone(a.year, a.month, b.month);
    } else if b.month < a.month {
      MonthsBeforeMonotone(a.year, b.month, a.month);
    }
  }

  /** Two days inside their Gregorian years with the same day number lie in
      the same year. */
  lemma SameYearStart(ya: int, yb: int, ra: int, rb: int)
    requires ya >= 1600 && yb >= 1600
    requires 0 <= ra < GregorianYearLength(ya) && 0 <= rb < GregorianYearLength(yb)
    requires GregorianYearStart(ya - 1600) + ra == GregorianYearStart(yb - 1600) + rb
    ensures ya == yb
  {
    assert 1600 + (ya - 1600) == ya && 1600 + (yb - 1600) == yb;
    if ya < yb {
      GregorianYearStartMonotone(ya - 1600, yb - 1600);
    } else if yb < ya {
      GregorianYearStartMonotone(yb - 1600, ya - 1600);
    }
  }

  // ---------------------------------------------------------------------------
  // Round trips
  // ---------------------------------------------------------------------------

  /** With the leap-day term corrected, converting a real Jalali date to
      Gregorian and back gives the same date. */
  lemma JalaliRoundTripFixed(j: JalaliDate)
    requires ValidJalali(j) && j.year > 979
    ensures JalaliDayCount(j.year, j.month, j.day) >= 0
    ensures var g := JalaliToGregorian(j.year, j.month, j.day);
            g.year > 1600 && GregorianToJalaliFixed(g.year, g.month, g.day) == j
  {
    JalaliYearStartStep(0);
    JalaliYearStartMonotone(0, j.year - 979);
    var g := JalaliToGregorian(j.year, j.month, j.day);
    if g.year == 1600 {
      DayOfYearInRange(g.year, g.month, g.day);
      assert false;
    }
    var j' := GregorianToJalaliFixed(g.year, g.month, g.day);
    JalaliOrdinalInjective(j, j');
  }

  /** A Jalali date at least a year's worth of days from the Jalali origin
      is after the year 979. */
  lemma JalaliYearAfterOrigin(j: JalaliDate)
    requires ValidJalali(j) && JalaliOrdinal(j.year, j.month, j.day) >= 366
    ensures j.year > 979
  {
  }

  /** A Gregorian date from 1602 on is at least 731 days after 1 January
      1600. */
  lemma GregorianFrom1602(g: GregorianDate)
    requires ValidGregorian(g) && g.year > 1601
    ensures GregorianOrdinal(g.year, g.month, g.day) >= 731
  {
    YearStartFrom1602(g.year - 1600);
  }

  /** The year 1602 starts 731 days after 1 January 1600, and later years
      later still. */
  lemma YearStartFrom1602(k: nat)
    requires k >= 2
    ensures GregorianYearStart(k) >= 731
  {
    assert GregorianYearStart(1) == 366;
    assert GregorianYearLength(1601) == 365;
    GregorianYearStartMonotone(1, k);
  }

  /** `jalaliToGregorian` of a real Jalali date after 979 is the Gregorian
      date with the same day, counted from 20 March 1600. */
  lemma BackToGregorian(j: JalaliDate)
    requires ValidJalali(j) && j.year > 979
    ensures JalaliDayCount(j.year, j.month, j.day) >= 0
    ensures var back := JalaliToGregorian(j.year, j.month, j.day);
            GregorianOrdinal(back.year, back.month, back.day) == JalaliOrdinal(j.year, j.month, j.day) + 79
  {
  }

  /** 21 March 1601, which is 1 Farvardin 980, counted from 1 January 1600.
      Earlier days fall in the Jalali year 979 or before, which only the
      `jy <= 979` branch of `jalaliToGregorian` handles. */
  const Farvardin980: nat := 445

  /** 1 Farvardin 980 is day 445 of the Gregorian count, and day 366 of the
      Jalali one. */
  lemma Farvardin980IsMarch21()
    ensures GregorianOrdinal(1601, 3, 21) == Farvardin980
    ensures JalaliOrdinal(980, 1, 1) == Farvardin980 - 79
  {
  }

  /** With the leap-day term corrected, converting a real Gregorian date from
      1 Farvardin 980 on to Jalali and back gives the same date. */
  lemma GregorianRoundTripFixed(g: GregorianDate)
    requires ValidGregorian(g) && g.year > 1600
    requires GregorianOrdinal(g.year, g.month, g.day) >= Farvardin980
    ensures var j := GregorianToJalaliFixed(g.year, g.month, g.day);
            j.year > 979 && JalaliDayCount(j.year, j.month, j.day) >= 0
            && JalaliToGregorian(j.year, j.month, j.day) == g
  {
    var j := GregorianToJalaliFixed(g.year, g.month, g.day);
    JalaliYearAfterOrigin(j);
    BackToGregorian(j);
    var back := JalaliToGregorian(j.year, j.month, j.day);
    GregorianOrdinalInjective(g, back);
  }

  // ---------------------------------------------------------------------------
  // The missing leap-day term of gregorianToJalali
  // ---------------------------------------------------------------------------

  /** As written, `gregorianToJalali` agrees with the corrected conversion
      except from March on in a Gregorian leap year, where it returns the day
      before. */
  lemma AsWrittenVersusFixed(gy: int, gm: int, gd: int)
    requires gy > 1600 && 1 <= gm <= 12 && gd >= 1
    ensures var j := GregorianToJalali(gy, gm, gd);
            var f := GregorianToJalaliFixed(gy, gm, gd);
            JalaliOrdinal(j.year, j.month, j.day)
            == JalaliOrdinal(f.year, f.month, f.day) - (if gm > 2 && IsGregorianLeap(gy) then 1 else 0)
    ensures !(gm > 2 && IsGregorianLeap(gy)) ==> GregorianToJalali(gy, gm, gd) == GregorianToJalaliFixed(gy, gm, gd)
  {
    var j := GregorianToJalali(gy, gm, gd);
    var f := GregorianToJalaliFixed(gy, gm, gd);
    if !(gm > 2 && IsGregorianLeap(gy)) {
      JalaliOrdinalInjective(j, f);
    }
  }

  /** As written, a real Gregorian date from 1 Farvardin 980 on survives the
      trip to Jalali and back exactly when it is not in March..December of a
      leap year; otherwise it comes back as the day before. */
  lemma AsWrittenRoundTrip(g: GregorianDate)
    requires ValidGregorian(g) && g.year > 1600
    requires GregorianOrdinal(g.year, g.month, g.day) >= Farvardin980
    ensures var j := GregorianToJalali(g.year, g.month, g.day);
            j.year > 979 && JalaliDayCount(j.year, j.month, j.day) >= 0
            && var back := JalaliToGregorian(j.year, j.month, j.day);
            && GregorianOrdinal(back.year, back.month, back.day)
               == GregorianOrdinal(g.year, g.month, g.day) - (if g.month > 2 && IsGregorianLeap(g.year) then 1 else 0)
            && (back == g <==> !(g.month > 2 && IsGregorianLeap(g.year)))
  {
    var j := GregorianToJalali(g.year, g.month, g.day);
    if g.month > 2 && IsGregorianLeap(g.year) {
      // 1601 is a common year, so a leap year here is 1602 or later.
      assert g.year != 1601;
      GregorianFrom1602(g);
    }
    JalaliYearAfterOrigin(j);
    BackToGregorian(j);
    var back := JalaliToGregorian(j.year, j.month, j.day);
    if !(g.month > 2 && IsGregorianLeap(g.year)) {
      GregorianOrdinalInjective(g, back);
    }
  }


  // ---------------------------------------------------------------------------
  // Worked dates around Nowruz 1403
  // ---------------------------------------------------------------------------

  /** The day counts of 20 March 2024, as written and corrected. */
  lemma DayCountsOfMarch20()
    ensures GregorianDayCount(2024, 3, 20) == 154862
    ensures GregorianDayCountFixed(2024, 3, 20) == 154863
  {
    assert LeapYearsBefore(424) == 103;
    assert LeapYearsBefore(425) == 104;
  }

  /** Day 154862 after 1 Farvardin 979 is 1402/12/29. */
  lemma Day154862()
    ensures JalaliFromDayCount(154862) == JalaliDate(1402, 12, 29)
  {
    assert FourYearSplit(10226).0 == 27 && FourYearSplit(10226).1 == 364;
    assert JalaliYearOfDay(154862).0 == 423 && JalaliYearOfDay(154862).1 == 364;
    assert JalaliMonthDay(364).0 == 12 && JalaliMonthDay(364).1 == 29;
  }

  /** Day 154863 after 1 Farvardin 979 is 1403/01/01. */
  lemma Day154863()
    ensures JalaliFromDayCount(154863) == JalaliDate(1403, 1, 1)
  {
    assert FourYearSplit(10227).0 == 28 && FourYearSplit(10227).1 == 0;
    assert JalaliYearOfDay(154863).0 == 424 && JalaliYearOfDay(154863).1 == 0;
    assert JalaliMonthDay(0).0 == 1 && JalaliMonthDay(0).1 == 1;
  }

  /** 20 March 2024 (Nowruz 1403): the conversion as written gives
      1402/12/29, the last day of the previous year. */
  lemma Nowruz1403AsWritten()
    ensures GregorianToJalali(2024, 3, 20) == JalaliDate(1402, 12, 29)
  {
    DayCountsOfMarch20();
    Day154862();
  }

  /** 20 March 2024: the corrected conversion gives 1403/01/01. */
  lemma Nowruz1403Fixed()
    ensures GregorianToJalaliFixed(2024, 3, 20) == JalaliDate(1403, 1, 1)
  {
    DayCountsOfMarch20();
    Day154863();
  }

  /** Gregorian day 154942 after 1 January 1600 is 20 March 2024. */
  lemma Day154942()
    ensures GregorianYearOfDay(154942).0 == 424 && GregorianYearOfDay(154942).1 == 79
  {
    assert FourYearSplit(8845).0 == 24 && FourYearSplit(8845).1 == 79;
  }

  /** 1403/01/01 converts to 20 March 2024. */
  lemma Nowruz1403ToGregorian()
    ensures JalaliDayCount(1403, 1, 1) >= 0
    ensures JalaliToGregorian(1403, 1, 1) == GregorianDate(2024, 3, 20)
  {
    assert JalaliDayCount(1403, 1, 1) == 154942;
    Day154942();
    WalkMonthsUnique(2024, 3, 20);
    assert DaysBeforeGregorianMonth(2024, 3) == 60;
  }

  /** As written, 29 February and 1 March 2024 both become 1402/12/10. */
  lemma LeapDayCollision()
    ensures GregorianToJalali(2024, 2, 29) == GregorianToJalali(2024, 3, 1) == JalaliDate(1402, 12, 10)
  {
    assert LeapYearsBefore(424) == 103;
    assert GregorianDayCount(2024, 2, 29) == 154843;
    assert GregorianDayCount(2024, 3, 1) == 154843;
    Day154843();
  }

  /** Day 154843 after 1 Farvardin 979 is 1402/12/10. */
  lemma Day154843()
    ensures JalaliFromDayCount(154843) == JalaliDate(1402, 12, 10)
  {
    assert FourYearSplit(10207).0 == 27 && FourYearSplit(10207).1 == 345;
    assert JalaliYearOfDay(154843).0 == 423 && JalaliYearOfDay(154843).1 == 345;
    assert JalaliMonthDay(345).0 == 12 && JalaliMonthDay(345).1 == 10;
  }
}

=== FILE: date_text.dfy ===
/**
  The text side of dates in utils.js: `formatDatePersian` writes a Jalali
  date as `Y/MM/DD` in Persian digits, and `parseDate` reads a typed date
  back, deciding whether it is a Jalali date, a Gregorian date, or text to
  hand to the `Date` string parser.
*/
module DateText {
  import opened Wrappers
  import opened Text
  import opened Digits
  import opened Calendar
  import opened CalendarRoundTrip

  /** `${year}/${month}/${day}` with the month and day padded to two digits
      (utils.js:80-83), before the digits are converted. It starts with the
      year, and for a month and day below 100 exactly six characters
      ("/MM/DD") follow it. */
  function JalaliText(jy: nat, jm: nat, jd: nat): (t: string)
    ensures |t| >= |NatToString(jy)| && t[..|NatToString(jy)|] == NatToString(jy)
    ensures jm < 100 && jd < 100 ==> |t| == |NatToString(jy)| + 6
  {
    var y := NatToString(jy);
    var t := y + "/" + Pad2(jm) + "/" + Pad2(jd);
    assert t == y + ("/" + Pad2(jm) + "/" + Pad2(jd));
    t
  }

  /** The formatting of utils.js:80-84: the padded text in Persian digits.
      It has no ASCII digit, exactly two slashes, and starts and ends with a
      Persian digit. */
  function FormatJalali(jy: nat, jm: nat, jd: nat): (s: string)
    ensures NoAsciiDigits(s)
    ensures CountChar(s, '/') == 2
    ensures |s| >= 7 && IsPersianDigit(s[0]) && IsPersianDigit(s[|s| - 1])
  {
    var t := JalaliText(jy, jm, jd);
    JalaliTextShape(jy, jm, jd);
    var s := ToPersianDigits(t);
    SameOccurrences(t, s, '/');
    s
  }

  /** Two texts of equal length that have `c` at the same positions contain
      it equally often. */
  lemma {:induction false} SameOccurrences(s: string, r: string, c: char)
    requires |r| == |s|
    requires forall i :: 0 <= i < |s| ==> (r[i] == c <==> s[i] == c)
    ensures CountChar(r, c) == CountChar(s, c)
  {
    if |s| > 0 {
      SameOccurrences(s[1..], r[1..], c);
    }
  }

  /** A run of ASCII digits has no slash. */
  lemma DigitsHaveNoSlash(s: string)
    requires AllAsciiDigits(s)
    ensures '/' !in s
  {
  }

  /** The formatted text is three digit runs joined by slashes: it has no
      Persian digit, two slashes, and an ASCII digit at each end. */
  lemma JalaliTextShape(jy: nat, jm: nat, jd: nat)
    ensures var t := JalaliText(jy, jm, jd);
            && t == Join([NatToString(jy), Pad2(jm), Pad2(jd)], '/')
            && NoPersianDigits(t)
            && CountChar(t, '/') == 2
            && |t| >= 7 && IsAsciiDigit(t[0]) && IsAsciiDigit(t[|t| - 1])
  {
    var a, b, c := NatToString(jy), Pad2(jm), Pad2(jd);
    var t := JalaliText(jy, jm, jd);
    assert [a, b, c][1..] == [b, c];
    assert [b, c][1..] == [c];
    assert Join([c], '/') == c;
    assert Join([b, c], '/') == b + "/" + c;
    assert Join([a, b, c], '/') == a + "/" + (b + "/" + c);
    assert t == a + "/" + (b + "/" + c);
    forall i | 0 <= i < |t| ensures !IsPersianDigit(t[i]) {
      if i < |a| { assert t[i] == a[i]; }
      else if i == |a| { }
      else if i < |a| + 1 + |b| { assert t[i] == b[i - |a| - 1]; }
      else if i == |a| + 1 + |b| { }
      else { assert t[i] == c[i - |a| - |b| - 2]; }
    }
    DigitsHaveNoSlash(a);
    DigitsHaveNoSlash(b);
    DigitsHaveNoSlash(c);
    SplitJoin([a, b, c], '/');
    assert t[0] == a[0];
    assert t[|t| - 1] == c[|c| - 1];
  }

  /** `formatDatePersian` for a Gregorian date after 1600 (utils.js:75-84):
      convert with `gregorianToJalali` as written, then format. The text
      shows the Jalali date whose day number is the Gregorian one, except
      from March on in a Gregorian leap year, where the missing leap-day
      term makes it the day before. */
  function FormatDatePersian(gy: int, gm: int, gd: int): (s: string)
    requires gy > 1600 && 1 <= gm <= 12 && gd >= 1
    ensures var j := GregorianToJalali(gy, gm, gd);
            && ValidJalali(j)
            && JalaliOrdinal(j.year, j.month, j.day)
               == GregorianOrdinal(gy, gm, gd) - 79 - (if gm > 2 && IsGregorianLeap(gy) then 1 else 0)
            && s == FormatJalali(j.year, j.month, j.day)
  {
    var j := GregorianToJalali(gy, gm, gd);
    FormatJalali(j.year, j.month, j.day)
  }

  /** `formatDatePersian` with the leap-day term of `gregorianToJalali`
      restored: the text shows the Jalali date whose day number is the
      Gregorian one on every date. It differs from `FormatDatePersian`
      exactly from March on in a Gregorian leap year. */
  function FormatDatePersianFixed(gy: int, gm: int, gd: int): (s: string)
    requires gy > 1600 && 1 <= gm <= 12 && gd >= 1
    ensures var j := GregorianToJalaliFixed(gy, gm, gd);
            && ValidJalali(j)
            && JalaliOrdinal(j.year, j.month, j.day) == GregorianOrdinal(gy, gm, gd) - 79
            && s == FormatJalali(j.year, j.month, j.day)
    ensures !(gm > 2 && IsGregorianLeap(gy)) ==> s == FormatDatePersian(gy, gm, gd)
  {
    AsWrittenVersusFixed(gy, gm, gd);
    var j := GregorianToJalaliFixed(gy, gm, gd);
    FormatJalali(j.year, j.month, j.day)
  }

  /** Where `parseDate` sends its input (utils.js:91-124). */
  datatype DateRoute =
    | NoInput                                   // empty input: `null`
    | JalaliRoute(year: int, month: int, day: int)     // `jalaliToGregorian(year, month, day)`
    | GregorianRoute(year: int, month: int, day: int)  // `new Date(year, month - 1, day)`
    | IsoRoute(text: string)                    // `new Date(text)` on the cleaned text

  /** The three numbers of a `Y/M/D` text, when it has exactly three
      slash-separated parts and each starts with a number; so a text read
      this way has exactly two slashes. */
  function SlashNumbers(t: string): (r: Option<(int, int, int)>)
    ensures r.Some? ==> CountChar(t, '/') == 2
  {
    var parts := Split(t, '/');
    if |parts| != 3 then None
    else match (ParseInt(parts[0]), ParseInt(parts[1]), ParseInt(parts[2]))
      case (Some(y), Some(m), Some(d)) => Some((y, m, d))
      case _ => None
  }

  /** The text `parseDate` works on: trimmed, with Persian digits made ASCII,
      so no Persian digit is left and it is no longer than the input. */
  function CleanDateText(s: string): (t: string)
    ensures NoPersianDigits(t) && |t| <= |s|
  {
    ToEnglishDigits(Trim(s))
  }

  /** `parseDate`'s choice of conversion. A `NaN` part makes both the Jalali
      and the Gregorian attempt produce an invalid date, so the input ends
      at the `Date` string parser. The Jalali branch is taken exactly when
      the cleaned text has three numeric slash-separated parts and the year
      lies strictly between 1300 and 1500. */
  function ParseDateRoute(s: string): (r: DateRoute)
    ensures r.NoInput? <==> s == ""
    ensures r.JalaliRoute? <==>
              s != "" && SlashNumbers(CleanDateText(s)).Some?
              && 1300 < SlashNumbers(CleanDateText(s)).value.0 < 1500
    ensures r.JalaliRoute? ==> SlashNumbers(CleanDateText(s)) == Some((r.year, r.month, r.day))
    ensures r.GregorianRoute? ==> SlashNumbers(CleanDateText(s)) == Some((r.year, r.month, r.day))
    ensures r.IsoRoute? <==> s != "" && SlashNumbers(CleanDateText(s)).None?
  {
    if s == "" then NoInput
    else
      var t := CleanDateText(s);
      if '/' in t then
        match SlashNumbers(t)
        case Some((y, m, d)) => if 1300 < y < 1500 then JalaliRoute(y, m, d) else GregorianRoute(y, m, d)
        case None => IsoRoute(t)
      else
        assert CountChar(t, '/') == 0 by { NoSlashCount(t); }
        IsoRoute(t)
  }

  /** A text without a slash splits into a single part. */
  lemma NoSlashCount(t: string)
    requires '/' !in t
    ensures CountChar(t, '/') == 0
  {
    if |t| > 0 {
      assert '/' !in t[1..];
      NoSlashCount(t[1..]);
    }
  }

  /** Whether `parseDate` returns a date rather than `null`. `isoAccepts`
      stands for the `Date` string parser of the browser. The empty input is
      never a date; a text of three slash-separated numbers always is (on
      the Jalali or the Gregorian branch); any other text is a date exactly
      when the `Date` string parser accepts its cleaned form. */
  function ParseDateAccepts(s: string, isoAccepts: string -> bool): (b: bool)
    ensures s == "" ==> !b
    ensures s != "" && SlashNumbers(CleanDateText(s)).Some? ==> b
    ensures SlashNumbers(CleanDateText(s)).None? ==>
              (b <==> s != "" && CleanDateText(s) != "" && isoAccepts(CleanDateText(s)))
  {
    match ParseDateRoute(s)
    case NoInput => false
    case JalaliRoute(_, _, _) => true
    case GregorianRoute(_, _, _) => true
    case IsoRoute(t) => t != "" && isoAccepts(t)
  }

  /** A Jalali date written by `formatDatePersian` is read back by
      `parseDate` as the same year, month and day, on the Jalali branch. */
  lemma FormatThenParse(jy: nat, jm: nat, jd: nat)
    requires 1300 < jy < 1500
    ensures ParseDateRoute(FormatJalali(jy, jm, jd)) == JalaliRoute(jy, jm, jd)
  {
    var s := FormatJalali(jy, jm, jd);
    CleanFormatted(jy, jm, jd);
    NumbersOfFormatted(jy, jm, jd);
    var r := ParseDateRoute(s);
    assert r.JalaliRoute?;
    assert (r.year, r.month, r.day) == (jy, jm, jd);
  }

  /** Trimming and converting the digits of a formatted date gives back the
      ASCII text it was made from. */
  lemma CleanFormatted(jy: nat, jm: nat, jd: nat)
    ensures CleanDateText(FormatJalali(jy, jm, jd)) == JalaliText(jy, jm, jd)
  {
    var s := FormatJalali(jy, jm, jd);
    var t := JalaliText(jy, jm, jd);
    JalaliTextShape(jy, jm, jd);
    FormattedIsTrimmed(jy, jm, jd);
    EnglishAfterPersian(t);
  }

  /** A formatted date has no surrounding blanks for `trim` to remove. */
  lemma FormattedIsTrimmed(jy: nat, jm: nat, jd: nat)
    ensures Trim(FormatJalali(jy, jm, jd)) == FormatJalali(jy, jm, jd)
  {
    TrimFixesTrimmed(FormatJalali(jy, jm, jd));
  }

  /** The three parts of the ASCII text read back as the three numbers. */
  lemma NumbersOfFormatted(jy: nat, jm: nat, jd: nat)
    ensures SlashNumbers(JalaliText(jy, jm, jd)) == Some((jy as int, jm as int, jd as int))
  {
    var a, b, c := NatToString(jy), Pad2(jm), Pad2(jd);
    JalaliTextShape(jy, jm, jd);
    DigitsHaveNoSlash(a);
    DigitsHaveNoSlash(b);
    DigitsHaveNoSlash(c);
    SplitJoin([a, b, c], '/');
    ParseIntOfNatToString(jy);
    ParseIntOfPad2(jm);
    ParseIntOfPad2(jd);
  }

  /** Jalali years after 979 start at least 366 days after 1 Farvardin 979,
      so a Gregorian date that converts into them is on or after 21 March
      1601. */
  lemma JalaliAfterOriginFar(j: JalaliDate)
    requires ValidJalali(j) && j.year > 979
    ensures JalaliOrdinal(j.year, j.month, j.day) >= 366
  {
    JalaliYearStartMonotone(0, j.year - 979);
  }

  /** The corrected half: with the leap-day term restored, a Gregorian date
      shown by `formatDatePersian` and typed back unchanged reaches
      `jalaliToGregorian` on the Jalali branch and converts back to the
      shown date. */
  lemma DisplayedDateReparsed(g: GregorianDate)
    requires ValidGregorian(g) && g.year > 1600
    requires 1300 < GregorianToJalaliFixed(g.year, g.month, g.day).year < 1500
    ensures var j := GregorianToJalaliFixed(g.year, g.month, g.day);
            && ParseDateRoute(FormatDatePersianFixed(g.year, g.month, g.day)) == JalaliRoute(j.year, j.month, j.day)
            && JalaliDayCount(j.year, j.month, j.day) >= 0
            && JalaliToGregorian(j.year, j.month, j.day) == g
  {
    var j := GregorianToJalaliFixed(g.year, g.month, g.day);
    JalaliAfterOriginFar(j);
    assert GregorianOrdinal(g.year, g.month, g.day) >= Farvardin980;
    FormatThenParse(j.year, j.month, j.day);
    GregorianRoundTripFixed(g);
  }

  /** What the program does: the date `formatDatePersian` shows, read back by
      `parseDate` and `jalaliToGregorian`, is the original date except from
      March on in a Gregorian leap year, where it is the day before. */
  lemma DisplayedDateAsWritten(g: GregorianDate)
    requires ValidGregorian(g) && g.year > 1600
    requires 1300 < GregorianToJalali(g.year, g.month, g.day).year < 1500
    ensures var j := GregorianToJalali(g.year, g.month, g.day);
            && ParseDateRoute(FormatDatePersian(g.year, g.month, g.day)) == JalaliRoute(j.year, j.month, j.day)
            && JalaliDayCount(j.year, j.month, j.day) >= 0
            && var back := JalaliToGregorian(j.year, j.month, j.day);
            && GregorianOrdinal(back.year, back.month, back.day)
               == GregorianOrdinal(g.year, g.month, g.day) - (if g.month > 2 && IsGregorianLeap(g.year) then 1 else 0)
            && (back == g <==> !(g.month > 2 && IsGregorianLeap(g.year)))
  {
    var j := GregorianToJalali(g.year, g.month, g.day);
    JalaliAfterOriginFar(j);
    assert GregorianOrdinal(g.year, g.month, g.day) >= Farvardin980;
    FormatThenParse(j.year, j.month, j.day);
    AsWrittenRoundTrip(g);
  }
}

=== FILE: digits.dfy ===
/**
  Conversion between ASCII digits 0-9 and the Extended Arabic-Indic
  ("Persian") digits U+06F0..U+06F9 (`toPersianDigits` and
  `toEnglishDigits` in utils.js).
*/
module Digits {
  import opened Text

  /** One of the ten Persian digits U+06F0..U+06F9. */
  predicate IsPersianDigit(c: char) {
    '\U{06F0}' <= c <= '\U{06F9}'
  }

  /** The Persian digit for `d`. */
  function PersianDigit(d: nat): (c: char)
    requires d < 10
    ensures IsPersianDigit(c) && c as int - 0x06F0 == d
  {
    (0x06F0 + d) as char
  }

  /** What `toPersianDigits` does to one character: an ASCII digit becomes the
      Persian digit of the same value; every other character is kept. */
  function PersianChar(c: char): (r: char)
    ensures IsAsciiDigit(c) ==> IsPersianDigit(r) && r as int - 0x06F0 == c as int - '0' as int
    ensures !IsAsciiDigit(c) ==> r == c
  {
    if IsAsciiDigit(c) then PersianDigit(c as int - '0' as int) else c
  }

  /** What `toEnglishDigits` does to one character: a Persian digit becomes
      the ASCII digit of the same value; every other character is kept. */
  function EnglishChar(c: char): (r: char)
    ensures IsPersianDigit(c) ==> IsAsciiDigit(r) && r as int - '0' as int == c as int - 0x06F0
    ensures !IsPersianDigit(c) ==> r == c
  {
    if IsPersianDigit(c) then DigitChar(c as int - 0x06F0) else c
  }

  /** `s` contains no Persian digit. */
  predicate NoPersianDigits(s: string) {
    forall i :: 0 <= i < |s| ==> !IsPersianDigit(s[i])
  }

  /** `s` contains no ASCII digit. */
  predicate NoAsciiDigits(s: string) {
    forall i :: 0 <= i < |s| ==> !IsAsciiDigit(s[i])
  }

  /** `toPersianDigits(s)`: the global `\d` replacement, one character at a
      time. The result has the same length, keeps every non-digit character,
      and no ASCII digit survives. */
  function ToPersianDigits(s: string): (r: string)
    ensures |r| == |s|
    ensures forall i :: 0 <= i < |s| ==> r[i] == PersianChar(s[i])
    ensures NoAsciiDigits(r)
  {
    if |s| == 0 then "" else [PersianChar(s[0])] + ToPersianDigits(s[1..])
  }

  /** `s.replace(new RegExp(from, 'g'), to)` for a single-character pattern. */
  function ReplaceAll(s: string, from: char, to: char): (r: string)
    ensures |r| == |s|
    ensures forall i :: 0 <= i < |s| ==> r[i] == (if s[i] == from then to else s[i])
  {
    if |s| == 0 then ""
    else [if s[0] == from then to else s[0]] + ReplaceAll(s[1..], from, to)
  }

  /** The passes `k..9` of the `forEach` in `toEnglishDigits`: pass `k`
      replaces every Persian digit `k` by the ASCII digit `k`. */
  function ReplacePasses(s: string, k: nat): string
    requires k <= 10
    decreases 10 - k
  {
    if k == 10 then s
    else ReplacePasses(ReplaceAll(s, PersianDigit(k), DigitChar(k)), k + 1)
  }

  /** After passes `0..k-1`, the remaining passes finish the job: the string
      ends up mapped character by character by `EnglishChar`. */
  lemma {:induction false} ReplacePassesCharwise(s: string, k: nat)
    requires k <= 10
    requires forall i :: 0 <= i < |s| ==> !(IsPersianDigit(s[i]) && s[i] as int - 0x06F0 < k)
    ensures var r := ReplacePasses(s, k);
            |r| == |s| && forall i :: 0 <= i < |s| ==> r[i] == EnglishChar(s[i])
    decreases 10 - k
  {
    if k < 10 {
      var s' := ReplaceAll(s, PersianDigit(k), DigitChar(k));
      ReplacePassesCharwise(s', k + 1);
      forall i | 0 <= i < |s|
        ensures EnglishChar(s'[i]) == EnglishChar(s[i])
      {
      }
    }
  }

  /** `toEnglishDigits(s)`: ten sequential replacement passes, which amount to
      mapping every character by `EnglishChar`. No Persian digit survives. */
  function ToEnglishDigits(s: string): (r: string)
    ensures |r| == |s|
    ensures forall i :: 0 <= i < |s| ==> r[i] == EnglishChar(s[i])
    ensures NoPersianDigits(r)
  {
    ReplacePassesCharwise(s, 0);
    ReplacePasses(s, 0)
  }

  /** Converting to Persian digits twice is converting once. */
  lemma ToPersianIdempotent(s: string)
    ensures ToPersianDigits(ToPersianDigits(s)) == ToPersianDigits(s)
  {
  }

  /** Converting to ASCII digits twice is converting once. */
  lemma ToEnglishIdempotent(s: string)
    ensures ToEnglishDigits(ToEnglishDigits(s)) == ToEnglishDigits(s)
  {
  }

  /** `toEnglishDigits` undoes `toPersianDigits` on any text that had no
      Persian digit to begin with. */
  lemma EnglishAfterPersian(s: string)
    requires NoPersianDigits(s)
    ensures ToEnglishDigits(ToPersianDigits(s)) == s
  {
    var r := ToEnglishDigits(ToPersianDigits(s));
    forall i | 0 <= i < |s| ensures r[i] == s[i] {
      if IsAsciiDigit(s[i]) {
        assert EnglishChar(PersianChar(s[i])) as int == s[i] as int;
      }
    }
  }

  /** `toPersianDigits` undoes `toEnglishDigits` on any text that had no
      ASCII digit to begin with. */
  lemma PersianAfterEnglish(s: string)
    requires NoAsciiDigits(s)
    ensures ToPersianDigits(ToEnglishDigits(s)) == s
  {
    var r := ToPersianDigits(ToEnglishDigits(s));
    forall i | 0 <= i < |s| ensures r[i] == s[i] {
      if IsPersianDigit(s[i]) {
        assert PersianChar(EnglishChar(s[i])) as int == s[i] as int;
      }
    }
  }

  /** The two maps are not inverse on mixed text: an ASCII digit next to a
      Persian one comes back Persian. */
  lemma MixedDigitsDoNotRoundTrip()
    ensures ToEnglishDigits(ToPersianDigits("1\U{06F2}")) == "12"
  {
    var p := ToPersianDigits("1\U{06F2}");
    assert p == "\U{06F1}\U{06F2}";
    var e := ToEnglishDigits(p);
    assert e[0] == '1' && e[1] == '2';
  }
}

=== FILE: installments.dfy ===
/**
  The installment and payment screens of installments.js: recording and
  removing a payment, the installment note, the list of installments still
  to collect with its filters, how each row is labelled, and the list of
  payments.
*/
module Installments {
  import opened Wrappers
  import opened Text
  import opened Records
  import opened DateText

  // ---------------------------------------------------------------------------
  // Payments and notes
  // ---------------------------------------------------------------------------

  /** Why `savePayment` refused to write. */
  datatype PaymentError = PaymentDateInvalid

  /** The columns a payment or a note never touches: who owes, how much,
      when, and which installment of how many it is. */
  predicate SameSchedule(a: Installment, b: Installment) {
    && a.learnerId == b.learnerId && a.learnerName == b.learnerName && a.phone == b.phone
    && a.amount == b.amount && a.dueDay == b.dueDay
    && a.number == b.number && a.totalInstallments == b.totalInstallments
  }

  /** `savePayment` (installments.js:81-100). A non-empty date that
      `parseDate` reads marks the installment paid on that date, kept as
      typed; an empty date puts it back to waiting with no date; a date
      `parseDate` rejects writes nothing. The note is stored in every case. */
  function SavePayment(inst: Installment, dateField: string, noteField: string,
                       isoAccepts: string -> bool): (r: Result<Installment, PaymentError>)
    ensures r.Err? <==> Trim(dateField) != "" && !ParseDateAccepts(Trim(dateField), isoAccepts)
    ensures r.Ok? ==> (r.value.status == Paid <==> Trim(dateField) != "")
    ensures r.Ok? ==> r.value.paymentDate == NullIfEmpty(Trim(dateField))
    ensures r.Ok? ==> r.value.paymentNote == NullIfEmpty(Trim(noteField))
    ensures r.Ok? ==> SameSchedule(r.value, inst) && r.value.installmentNote == inst.installmentNote
  {
    var date := Trim(dateField);
    var note := NullIfEmpty(Trim(noteField));
    if date != "" then
      if !ParseDateAccepts(date, isoAccepts) then Err(PaymentDateInvalid)
      else Ok(inst.(status := Paid, paymentDate := Some(date), paymentNote := note))
    else Ok(inst.(status := Pending, paymentDate := None, paymentNote := note))
  }

  /** `deletePayment` (installments.js:165-178): unless the user cancels the
      confirmation, the installment is waiting again with no payment date
      and no payment note; nothing else changes. */
  function DeletePayment(inst: Installment, confirmed: bool): (r: Option<Installment>)
    ensures r.None? <==> !confirmed
    ensures r.Some? ==> r.value.status == Pending && r.value.paymentDate.None? && r.value.paymentNote.None?
    ensures r.Some? ==> SameSchedule(r.value, inst) && r.value.installmentNote == inst.installmentNote
  {
    if !confirmed then None
    else Some(inst.(status := Pending, paymentDate := None, paymentNote := None))
  }

  /** Removing a payment undoes recording it: an installment that was
      waiting with no payment details is back exactly as it was. */
  lemma DeleteUndoesSave(inst: Installment, dateField: string, noteField: string, isoAccepts: string -> bool)
    requires inst.status == Pending && inst.paymentDate.None? && inst.paymentNote.None?
    requires SavePayment(inst, dateField, noteField, isoAccepts).Ok?
    ensures DeletePayment(SavePayment(inst, dateField, noteField, isoAccepts).value, true) == Some(inst)
  {
  }

  /** Recording a payment twice keeps only the second: the first leaves no
      trace once the second succeeds. */
  lemma LastPaymentWins(inst: Installment, d1: string, n1: string, d2: string, n2: string,
                        isoAccepts: string -> bool)
    requires SavePayment(inst, d1, n1, isoAccepts).Ok?
    ensures SavePayment(SavePayment(inst, d1, n1, isoAccepts).value, d2, n2, isoAccepts)
            == SavePayment(inst, d2, n2, isoAccepts)
  {
  }

  /** The payment form is pre-filled with today's date as `formatDatePersian`
      writes it (installments.js:75); such a date is always accepted, and
      marks the installment paid on exactly that text. */
  lemma PrefilledDateAccepted(inst: Installment, jy: nat, jm: nat, jd: nat, noteField: string,
                              isoAccepts: string -> bool)
    requires 1300 < jy < 1500
    ensures var r := SavePayment(inst, FormatJalali(jy, jm, jd), noteField, isoAccepts);
            r.Ok? && r.value.status == Paid && r.value.paymentDate == Some(FormatJalali(jy, jm, jd))
  {
    FormattedIsTrimmed(jy, jm, jd);
    FormatThenParse(jy, jm, jd);
    JalaliTextPays(inst, FormatJalali(jy, jm, jd), noteField, isoAccepts);
  }

  /** A trimmed date that `parseDate` reads as a Jalali date marks the
      installment paid on exactly that text. */
  lemma JalaliTextPays(inst: Installment, s: string, noteField: string, isoAccepts: string -> bool)
    requires Trim(s) == s && ParseDateRoute(s).JalaliRoute?
    ensures var r := SavePayment(inst, s, noteField, isoAccepts);
            r.Ok? && r.value.status == Paid && r.value.paymentDate == Some(s)
  {
  }

  /** `saveInstallmentNote` (installments.js:145-162): the trimmed note, or
      no note when it is empty; the payment state is untouched. */
  function SaveInstallmentNote(inst: Installment, noteField: string): (r: Installment)
    ensures r.installmentNote == NullIfEmpty(Trim(noteField))
    ensures HasText(r.installmentNote) <==> Trim(noteField) != ""
    ensures SameSchedule(r, inst)
    ensures r.status == inst.status && r.paymentDate == inst.paymentDate && r.paymentNote == inst.paymentNote
  {
    inst.(installmentNote := NullIfEmpty(Trim(noteField)))
  }

  // ---------------------------------------------------------------------------
  // refreshInstallments: the list of installments to collect
  // ---------------------------------------------------------------------------

  /** The choices of the status filter; any other value lists nothing. */
  datatype StatusFilter = AllRows | WaitingRows | OverdueRows | WithNoteRows | UnknownFilter

  /** `filterStatus = value || 'all'`, read as one of the filter choices. */
  function StatusFilterOf(value: string): (f: StatusFilter)
    ensures f == AllRows <==> value == "" || value == "all"
    ensures f == UnknownFilter <==> value !in {"", "all", "pending", "overdue", "with-note"}
  {
    if value == "" || value == "all" then AllRows
    else if value == "pending" then WaitingRows
    else if value == "overdue" then OverdueRows
    else if value == "with-note" then WithNoteRows
    else UnknownFilter
  }

  /** How far ahead the list looks: rows due later than this many days from
      today are hidden. */
  const DueWindow: int := 30

  /** Whole days from today to the due day: counting that many days on from
      today lands on the due day, so it is negative exactly once the due day
      has passed and zero on the due day itself. */
  function DaysUntilDue(inst: Installment, today: int): (d: int)
    ensures today + d == inst.dueDay
    ensures d < 0 <==> inst.dueDay < today
  {
    inst.dueDay - today
  }

  /** The status part of the filter (installments.js:243-249). The full list
      keeps every row, an unknown filter none, the with-note filter the rows
      with a note, and the waiting and overdue filters split the rows at the
      start of today: a row is in exactly one of them. */
  function PassesStatus(inst: Installment, today: int, f: StatusFilter): (b: bool)
    ensures f == AllRows ==> b
    ensures f == UnknownFilter ==> !b
    ensures f == WithNoteRows ==> (b <==> HasText(inst.installmentNote))
    ensures f == WaitingRows ==> (b <==> today <= inst.dueDay)
    ensures f == OverdueRows ==> (b <==> inst.dueDay < today)
  {
    match f
    case AllRows => true
    case WaitingRows => DaysUntilDue(inst, today) >= 0
    case OverdueRows => DaysUntilDue(inst, today) < 0
    case WithNoteRows => HasText(inst.installmentNote)
    case UnknownFilter => false
  }

  /** Whether a row is listed: not paid (the query of installments.js:203),
      due within the window or already overdue, matching the search, and
      passing the status filter. */
  function Listed(inst: Installment, today: int, f: StatusFilter, typed: string): (b: bool)
    ensures b ==> inst.status != Paid && inst.dueDay <= today + DueWindow
    ensures b ==> MatchesSearch(inst.learnerName, typed)
    ensures f == UnknownFilter ==> !b
  {
    && inst.status != Paid
    && DaysUntilDue(inst, today) <= DueWindow
    && MatchesSearch(inst.learnerName, typed)
    && PassesStatus(inst, today, f)
  }

  /** The rows `refreshInstallments` shows, in the order the store returned
      them: exactly the listed rows, and only unpaid rows due within 30 days. */
  function ListInstallments(rows: seq<Installment>, today: int, f: StatusFilter, typed: string)
    : (r: seq<Installment>)
    ensures |r| <= |rows|
    ensures forall k :: 0 <= k < |r| ==> r[k] in rows && Listed(r[k], today, f, typed)
    ensures forall k :: 0 <= k < |r| ==> r[k].status != Paid && DaysUntilDue(r[k], today) <= DueWindow
    ensures forall k :: 0 <= k < |rows| && Listed(rows[k], today, f, typed) ==> rows[k] in r
    ensures |rows| == 1 ==> r == if Listed(rows[0], today, f, typed) then rows else []
  {
    if |rows| == 0 then []
    else
      var rest := ListInstallments(rows[1..], today, f, typed);
      if Listed(rows[0], today, f, typed) then [rows[0]] + rest else rest
  }

  /** Listing works piece by piece: the listed rows of `a + b` are those of
      `a` followed by those of `b`. With the one-row case this fixes the
      list: the store's order, each row as often as it occurs. */
  lemma {:induction false} ListInstallmentsConcat(a: seq<Installment>, b: seq<Installment>, today: int,
                                                  f: StatusFilter, typed: string)
    ensures ListInstallments(a + b, today, f, typed)
            == ListInstallments(a, today, f, typed) + ListInstallments(b, today, f, typed)
  {
    if |a| == 0 {
      assert a + b == b;
    } else {
      assert (a + b)[0] == a[0];
      assert (a + b)[1..] == a[1..] + b;
      ListInstallmentsConcat(a[1..], b, today, f, typed);
    }
  }

  /** The waiting and the overdue filters split the full list between
      them: no row is in both, every row of the full list is in one, and
      their lengths add up to its length. */
  lemma {:induction false} WaitingOverdueSplit(rows: seq<Installment>, today: int, typed: string)
    ensures |ListInstallments(rows, today, WaitingRows, typed)| + |ListInstallments(rows, today, OverdueRows, typed)|
            == |ListInstallments(rows, today, AllRows, typed)|
    ensures forall x :: x in ListInstallments(rows, today, AllRows, typed) <==>
              x in ListInstallments(rows, today, WaitingRows, typed) || x in ListInstallments(rows, today, OverdueRows, typed)
    ensures forall x :: !(x in ListInstallments(rows, today, WaitingRows, typed)
                          && x in ListInstallments(rows, today, OverdueRows, typed))
  {
    if |rows| > 0 {
      WaitingOverdueSplit(rows[1..], today, typed);
    }
  }

  /** The with-note filter keeps exactly the rows of the full list that
      carry a non-empty installment note, in the same order. */
  lemma {:induction false} WithNoteIsNotedPart(rows: seq<Installment>, today: int, typed: string)
    ensures ListInstallments(rows, today, WithNoteRows, typed) == Noted(ListInstallments(rows, today, AllRows, typed))
  {
    if |rows| > 0 {
      WithNoteIsNotedPart(rows[1..], today, typed);
      var rest := ListInstallments(rows[1..], today, AllRows, typed);
      if Listed(rows[0], today, AllRows, typed) {
        assert ([rows[0]] + rest)[1..] == rest;
      }
    }
  }

  /** The rows of a list that carry a non-empty installment note, in the
      list's order: exactly the noted rows. */
  function Noted(rows: seq<Installment>): (r: seq<Installment>)
    ensures |r| <= |rows|
    ensures forall k :: 0 <= k < |r| ==> HasText(r[k].installmentNote) && r[k] in rows
    ensures forall k :: 0 <= k < |rows| && HasText(rows[k].installmentNote) ==> rows[k] in r
    ensures |rows| == 1 ==> r == if HasText(rows[0].installmentNote) then rows else []
  {
    if |rows| == 0 then []
    else if HasText(rows[0].installmentNote) then [rows[0]] + Noted(rows[1..])
    else Noted(rows[1..])
  }

  /** Selecting the noted rows works piece by piece. With the one-row case
      this fixes the result: the list's order, each row as often as it
      occurs. */
  lemma {:induction false} NotedConcat(a: seq<Installment>, b: seq<Installment>)
    ensures Noted(a + b) == Noted(a) + Noted(b)
  {
    if |a| == 0 {
      assert a + b == b;
    } else {
      assert (a + b)[0] == a[0];
      assert (a + b)[1..] == a[1..] + b;
      NotedConcat(a[1..], b);
    }
  }

  /** A filter value the page does not know lists nothing. */
  lemma {:induction false} UnknownFilterListsNothing(rows: seq<Installment>, today: int, typed: string)
    ensures ListInstallments(rows, today, UnknownFilter, typed) == []
  {
    if |rows| > 0 {
      UnknownFilterListsNothing(rows[1..], today, typed);
    }
  }

  /** Rows in ascending due-day order. */
  predicate SortedByDue(rows: seq<Installment>) {
    forall i, j :: 0 <= i < j < |rows| ==> rows[i].dueDay <= rows[j].dueDay
  }

  /** Rows given in due-day order, as the store returns them, stay in that
      order after filtering. */
  lemma {:induction false} ListKeepsDueOrder(rows: seq<Installment>, today: int, f: StatusFilter, typed: string)
    requires SortedByDue(rows)
    ensures SortedByDue(ListInstallments(rows, today, f, typed))
  {
    if |rows| > 0 {
      ListKeepsDueOrder(rows[1..], today, f, typed);
      if Listed(rows[0], today, f, typed) {
        SortedHeadFirst(rows);
        SortedCons(rows[0], ListInstallments(rows[1..], today, f, typed));
      }
    }
  }

  /** The first row of a sorted list is due no later than any other. */
  lemma SortedHeadFirst(rows: seq<Installment>)
    requires SortedByDue(rows) && |rows| > 0
    ensures forall x :: x in rows[1..] ==> rows[0].dueDay <= x.dueDay
  {
    forall x | x in rows[1..] ensures rows[0].dueDay <= x.dueDay {
      var k :| 0 <= k < |rows[1..]| && rows[1..][k] == x;
      assert rows[k + 1] == x;
    }
  }

  /** A sorted list stays sorted behind a row due no later than its rows. */
  lemma SortedCons(h: Installment, t: seq<Installment>)
    requires SortedByDue(t)
    requires forall k :: 0 <= k < |t| ==> h.dueDay <= t[k].dueDay
    ensures SortedByDue([h] + t)
  {
    var s := [h] + t;
    forall i, j | 0 <= i < j < |s| ensures s[i].dueDay <= s[j].dueDay {
      assert s[j] == t[j - 1];
      if i > 0 {
        assert s[i] == t[i - 1];
      }
    }
  }

  // ---------------------------------------------------------------------------
  // Row labels
  // ---------------------------------------------------------------------------

  /** The status cell: `'در انتظار'` (waiting) or `'عقب مانده'` (overdue). */
  datatype RowLabel = WaitingLabel | OverdueLabel

  /** The class of the whole row. */
  datatype RowClass = RowPending | RowOverdue | RowWithNote

  /** What one listed row shows about its state and its note. */
  datatype RowView = RowView(statusLabel: RowLabel, rowClass: RowClass, notePreview: string, noteExpandable: bool)

  /** The maximum number of note characters shown in the list. */
  const NotePreviewLength: nat := PreviewLength

  /** The labelling of installments.js:262-274 and the note cell of line
      285: overdue once the due day has passed; a note marks the row
      whatever its state; the note is cut to 50 characters with `...`, and
      can be opened in full only when it was cut. */
  function ViewRow(inst: Installment, today: int): (v: RowView)
    ensures v.statusLabel == OverdueLabel <==> DaysUntilDue(inst, today) < 0
    ensures v.rowClass == RowWithNote <==> HasText(inst.installmentNote)
    ensures v.rowClass == RowOverdue <==> !HasText(inst.installmentNote) && DaysUntilDue(inst, today) < 0
    ensures v.noteExpandable <==> |TextOrEmpty(inst.installmentNote)| > NotePreviewLength
    ensures v.notePreview == Preview(TextOrEmpty(inst.installmentNote))
  {
    var overdue := DaysUntilDue(inst, today) < 0;
    var rowClass := if HasText(inst.installmentNote) then RowWithNote
                    else if overdue then RowOverdue else RowPending;
    var note := TextOrEmpty(inst.installmentNote);
    RowView(if overdue then OverdueLabel else WaitingLabel, rowClass, Preview(note), |note| > NotePreviewLength)
  }

  /** The filters and the labels agree: a row the overdue filter lists is
      labelled overdue, one the waiting filter lists is labelled waiting,
      and one the with-note filter lists is marked as having a note. */
  lemma FilterAgreesWithLabel(rows: seq<Installment>, today: int, typed: string, k: nat)
    ensures k < |ListInstallments(rows, today, OverdueRows, typed)| ==>
              ViewRow(ListInstallments(rows, today, OverdueRows, typed)[k], today).statusLabel == OverdueLabel
    ensures k < |ListInstallments(rows, today, WaitingRows, typed)| ==>
              ViewRow(ListInstallments(rows, today, WaitingRows, typed)[k], today).statusLabel == WaitingLabel
    ensures k < |ListInstallments(rows, today, WithNoteRows, typed)| ==>
              ViewRow(ListInstallments(rows, today, WithNoteRows, typed)[k], today).rowClass == RowWithNote
  {
  }

  // ---------------------------------------------------------------------------
  // refreshPayments
  // ---------------------------------------------------------------------------

  /** The rows `refreshPayments` shows: the paid ones (the query of
      installments.js:316) matching the search, in store order. */
  function ListPayments(rows: seq<Installment>, typed: string): (r: seq<Installment>)
    ensures |r| <= |rows|
    ensures forall k :: 0 <= k < |r| ==> r[k] in rows && r[k].status == Paid && MatchesSearch(r[k].learnerName, typed)
    ensures forall k :: 0 <= k < |rows| && rows[k].status == Paid && MatchesSearch(rows[k].learnerName, typed) ==>
              rows[k] in r
    ensures |rows| == 1 ==> r == if rows[0].status == Paid && MatchesSearch(rows[0].learnerName, typed) then rows else []
  {
    if |rows| == 0 then []
    else
      var rest := ListPayments(rows[1..], typed);
      if rows[0].status == Paid && MatchesSearch(rows[0].learnerName, typed) then [rows[0]] + rest else rest
  }

  /** The payments list works piece by piece, so it keeps the store's order
      and each paid row as often as it occurs. */
  lemma {:induction false} ListPaymentsConcat(a: seq<Installment>, b: seq<Installment>, typed: string)
    ensures ListPayments(a + b, typed) == ListPayments(a, typed) + ListPayments(b, typed)
  {
    if |a| == 0 {
      assert a + b == b;
    } else {
      assert (a + b)[0] == a[0];
      assert (a + b)[1..] == a[1..] + b;
      ListPaymentsConcat(a[1..], b, typed);
    }
  }

  /** No installment is both in the payments list and in the list of
      installments to collect. */
  lemma PaymentsAndDuesDisjoint(rows: seq<Installment>, today: int, f: StatusFilter, typed: string, typed2: string)
    ensures forall x :: !(x in ListPayments(rows, typed) && x in ListInstallments(rows, today, f, typed2))
  {
  }

  /** Recording a payment moves an installment from the list of dues to the
      list of payments; removing it moves it back, if it is due within the
      window. */
  lemma PaymentMovesRow(inst: Installment, dateField: string, noteField: string,
                        isoAccepts: string -> bool, today: int)
    requires Trim(dateField) != "" && SavePayment(inst, dateField, noteField, isoAccepts).Ok?
    ensures var paid := SavePayment(inst, dateField, noteField, isoAccepts).value;
            && ListPayments([paid], "") == [paid]
            && ListInstallments([paid], today, AllRows, "") == []
            && var back := DeletePayment(paid, true).value;
            && ListPayments([back], "") == []
            && (DaysUntilDue(inst, today) <= DueWindow ==> ListInstallments([back], today, AllRows, "") == [back])
  {
    var paid := SavePayment(inst, dateField, noteField, isoAccepts).value;
    PaidRowListed(paid, today);
    WaitingRowListed(DeletePayment(paid, true).value, today);
  }

  /** A paid row is in the payments list and not in the list of dues. */
  lemma PaidRowListed(paid: Installment, today: int)
    requires paid.status == Paid
    ensures ListPayments([paid], "") == [paid]
    ensures ListInstallments([paid], today, AllRows, "") == []
  {
    SearchFacts(paid.learnerName, "");
    assert [paid][1..] == [];
  }

  /** A waiting row is not in the payments list, and is in the list of dues
      when it falls due within the window. */
  lemma WaitingRowListed(back: Installment, today: int)
    requires back.status == Pending
    ensures ListPayments([back], "") == []
    ensures DaysUntilDue(back, today) <= DueWindow ==> ListInstallments([back], today, AllRows, "") == [back]
  {
    SearchFacts(back.learnerName, "");
    assert [back][1..] == [];
  }
}

=== FILE: learners.dfy ===
/**
  The learner form of learners.js: the checks `saveLearner` makes before it
  writes anything, the learner row and installment schedule it writes, and
  the paid / pending / overdue counts `refreshLearners` shows per learner.
*/
module Learners {
  import opened Wrappers
  import opened Text
  import opened Records
  import opened DateText
  import Digits

  /** The raw values of the learner form's fields. */
  datatype LearnerForm = LearnerForm(
    name: string,
    phone: string,
    age: string,
    level: string,
    goal: string,
    occupation: string,
    notes: string,
    hasPlan: bool,
    startDate: string,
    totalAmount: string,
    installmentCount: string)

  /** One row of the `learners` table as `saveLearner` writes it. */
  datatype LearnerRow = LearnerRow(
    name: string,
    phone: Option<string>,
    age: Option<string>,
    level: Option<string>,
    goal: Option<string>,
    occupation: Option<string>,
    notes: Option<string>,
    hasPlan: bool,
    startDay: Option<int>,
    totalAmount: Option<int>,
    installmentCount: Option<int>,
    installmentAmount: Option<int>)

  /** Why `saveLearner` refused to write; each is shown as a toast. */
  datatype SaveError =
    | NameRequired
    | PhoneNotElevenDigits
    | StartDateRequired
    | StartDateInvalid
    | TotalNotPositive
    | CountNotPositive

  /** What `saveLearner` writes: with a learner being edited, only that
      learner's row; otherwise a new learner row and its schedule. */
  datatype LearnerWrite =
    | UpdateLearner(id: nat, row: LearnerRow)
    | InsertLearner(row: LearnerRow, schedule: seq<Installment>)
  {
    function Row(): LearnerRow {
      match this
      case UpdateLearner(_, row) => row
      case InsertLearner(row, _) => row
    }
  }

  /** The phone number field: the number of phone digits `saveLearner`
      accepts. */
  const PhoneLength: nat := 11

  /** The days between two consecutive installments. */
  const InstallmentSpacing: int := 30

  // ---------------------------------------------------------------------------
  // Cleaning the typed values
  // ---------------------------------------------------------------------------

  /** `s.replace(/[^0-9]/g, '')`: the ASCII digits of `s`, in order. A
      single character is kept exactly when it is a digit, and a text cleans
      piece by piece (`KeepAsciiDigitsConcat`), which fixes the result; how
      often each character survives is `KeepAsciiDigitsCounts`. */
  function KeepAsciiDigits(s: string): (r: string)
    ensures AllAsciiDigits(r) && |r| <= |s|
    ensures |s| == 1 ==> r == (if IsAsciiDigit(s[0]) then s else "")
  {
    if |s| == 0 then ""
    else
      var rest := KeepAsciiDigits(s[1..]);
      if IsAsciiDigit(s[0]) then [s[0]] + rest else rest
  }

  /** A run of digits passes through unchanged, so cleaning twice is
      cleaning once. */
  lemma {:induction false} KeepAsciiDigitsOfDigits(s: string)
    requires AllAsciiDigits(s)
    ensures KeepAsciiDigits(s) == s
  {
    if |s| > 0 {
      KeepAsciiDigitsOfDigits(s[1..]);
    }
  }

  /** `s.replace(/,/g, '')`: `s` without its commas. A single character is
      kept exactly when it is not a comma, and a text is cleaned piece by
      piece (`RemoveCommasConcat`), which fixes the result; how often each
      other character survives is `RemoveCommasCounts`. */
  function RemoveCommas(s: string): (r: string)
    ensures ',' !in r && |r| == |s| - CountChar(s, ',')
    ensures |s| == 1 ==> r == (if s[0] == ',' then "" else s)
  {
    if |s| == 0 then ""
    else
      var rest := RemoveCommas(s[1..]);
      if s[0] == ',' then rest else [s[0]] + rest
  }

  /** Cleaning works piece by piece: the digits of `a + b` are the digits of
      `a` followed by the digits of `b`, so the kept digits stay in order. */
  lemma {:induction false} KeepAsciiDigitsConcat(a: string, b: string)
    ensures KeepAsciiDigits(a + b) == KeepAsciiDigits(a) + KeepAsciiDigits(b)
  {
    if |a| == 0 {
      assert a + b == b;
    } else {
      assert (a + b)[0] == a[0];
      assert (a + b)[1..] == a[1..] + b;
      KeepAsciiDigitsConcat(a[1..], b);
    }
  }

  /** Removing commas works piece by piece, so every other character keeps
      its place in order. */
  lemma {:induction false} RemoveCommasConcat(a: string, b: string)
    ensures RemoveCommas(a + b) == RemoveCommas(a) + RemoveCommas(b)
  {
    if |a| == 0 {
      assert a + b == b;
    } else {
      assert (a + b)[0] == a[0];
      assert (a + b)[1..] == a[1..] + b;
      RemoveCommasConcat(a[1..], b);
    }
  }

  /** Cleaning keeps every digit as often as it occurs, and drops every
      other character. */
  lemma {:induction false} KeepAsciiDigitsCounts(s: string, c: char)
    ensures CountChar(KeepAsciiDigits(s), c) == if IsAsciiDigit(c) then CountChar(s, c) else 0
  {
    if |s| > 0 {
      KeepAsciiDigitsCounts(s[1..], c);
      var rest := KeepAsciiDigits(s[1..]);
      if IsAsciiDigit(s[0]) {
        assert ([s[0]] + rest)[1..] == rest;
      }
    } else {
      assert KeepAsciiDigits(s) == "";
    }
  }

  /** A phone number typed in Persian digits has no ASCII digit left after
      cleaning, so it is stored as no phone at all rather than refused. */
  lemma PersianPhoneIsDropped(form: LearnerForm)
    requires Digits.NoAsciiDigits(form.phone)
    ensures PhoneDigits(form) == ""
  {
    TrimIsInnerSlice(form.phone);
    var i, j :| 0 <= i <= j <= |form.phone| && Trim(form.phone) == form.phone[i..j];
    SliceHasNoDigits(form.phone, i, j);
    NoDigitsKept(form.phone[i..j]);
  }

  /** A piece of a text without ASCII digits has none either. */
  lemma SliceHasNoDigits(s: string, a: nat, b: nat)
    requires a <= b <= |s| && Digits.NoAsciiDigits(s)
    ensures forall k :: 0 <= k < b - a ==> !IsAsciiDigit(s[a..b][k])
  {
    forall k | 0 <= k < b - a ensures !IsAsciiDigit(s[a..b][k]) {
      assert s[a..b][k] == s[a + k];
    }
  }

  /** A text without ASCII digits cleans to the empty string. */
  lemma {:induction false} NoDigitsKept(s: string)
    requires forall k :: 0 <= k < |s| ==> !IsAsciiDigit(s[k])
    ensures KeepAsciiDigits(s) == ""
  {
    if |s| > 0 {
      NoDigitsKept(s[1..]);
    }
  }

  /** Removing commas keeps every other character as often as it occurs. */
  lemma {:induction false} RemoveCommasCounts(s: string, c: char)
    ensures CountChar(RemoveCommas(s), c) == if c == ',' then 0 else CountChar(s, c)
  {
    if |s| > 0 {
      RemoveCommasCounts(s[1..], c);
      var rest := RemoveCommas(s[1..]);
      if s[0] != ',' {
        assert ([s[0]] + rest)[1..] == rest;
      }
    } else {
      assert RemoveCommas(s) == "";
    }
  }

  /** `parseInt(s) || 0`: both `NaN` and zero become zero. */
  function IntOrZero(s: string): (n: int)
    ensures ParseInt(s).Some? ==> n == ParseInt(s).value
    ensures ParseInt(s).None? ==> n == 0
  {
    ParseInt(s).GetOr(0)
  }

  /** `text.trim() || null` for the optional free-text fields. */
  function OptionalText(text: string): (r: Option<string>)
    ensures r == NullIfEmpty(Trim(text))
    ensures r.Some? ==> r.value != "" && Trim(r.value) == r.value
  {
    var t := Trim(text);
    TrimFixesTrimmed(t);
    NullIfEmpty(t)
  }

  /** The phone digits `saveLearner` keeps from the phone field: only ASCII
      digits, and never more characters than were typed. */
  function PhoneDigits(form: LearnerForm): (d: string)
    ensures AllAsciiDigits(d) && |d| <= |form.phone|
  {
    KeepAsciiDigits(Trim(form.phone))
  }

  // ---------------------------------------------------------------------------
  // The installment schedule
  // ---------------------------------------------------------------------------

  /** The row `generateInstallments` builds for installment `i`: a waiting
      row with no payment and no note, numbered `i` of `count`, whose due day
      lies 30 days further from the start for each number after the first. */
  function PlannedInstallment(learnerId: nat, name: string, phone: Option<string>,
                              count: int, amount: int, startDay: int, i: int): (row: Installment)
    ensures row.number == i && row.totalInstallments == count
    ensures row.dueDay - startDay == InstallmentSpacing * (row.number - 1)
    ensures row.status == Pending && row.paymentDate.None? && row.paymentNote.None? && row.installmentNote.None?
  {
    Installment(learnerId, Some(name), phone, amount, startDay + InstallmentSpacing * (i - 1),
                Pending, None, None, None, i, count)
  }

  /** The rows for installments `i..count` of the loop at learners.js:208-226:
      one row per number, in order, each due 30 days after the previous. */
  function ScheduleFrom(learnerId: nat, name: string, phone: Option<string>,
                        count: int, amount: int, startDay: int, i: int): (rows: seq<Installment>)
    requires i >= 1
    ensures |rows| == if i <= count then count - i + 1 else 0
    ensures forall k :: 0 <= k < |rows| ==>
              && rows[k].number == i + k
              && rows[k].totalInstallments == count
              && rows[k].dueDay == startDay + InstallmentSpacing * (i + k - 1)
              && rows[k].amount == amount
              && rows[k].learnerId == learnerId && rows[k].learnerName == Some(name) && rows[k].phone == phone
              && rows[k].status == Pending
              && rows[k].paymentDate.None? && rows[k].paymentNote.None? && rows[k].installmentNote.None?
    decreases count - i
  {
    if i > count then []
    else [PlannedInstallment(learnerId, name, phone, count, amount, startDay, i)]
         + ScheduleFrom(learnerId, name, phone, count, amount, startDay, i + 1)
  }

  /** `generateInstallments`: exactly `count` waiting rows numbered 1..count
      for the given learner, the first due on the start day, with no payment
      and no note. */
  function Schedule(learnerId: nat, name: string, phone: Option<string>,
                    count: nat, amount: int, startDay: int): (rows: seq<Installment>)
    ensures |rows| == count
    ensures forall k :: 0 <= k < count ==>
              && rows[k].number == k + 1
              && rows[k].totalInstallments == count
              && rows[k].dueDay == startDay + InstallmentSpacing * k
              && rows[k].amount == amount
              && rows[k].learnerId == learnerId && rows[k].learnerName == Some(name) && rows[k].phone == phone
              && rows[k].status == Pending
              && rows[k].paymentDate.None? && rows[k].paymentNote.None? && rows[k].installmentNote.None?
  {
    ScheduleFrom(learnerId, name, phone, count, amount, startDay, 1)
  }

  /** Consecutive due dates of a schedule are exactly 30 days apart. */
  lemma ScheduleSpacing(learnerId: nat, name: string, phone: Option<string>,
                        count: nat, amount: int, startDay: int, k: nat)
    requires k + 1 < count
    ensures var rows := Schedule(learnerId, name, phone, count, amount, startDay);
            rows[k + 1].dueDay - rows[k].dueDay == InstallmentSpacing
  {
    var rows := Schedule(learnerId, name, phone, count, amount, startDay);
    assert rows[k + 1].dueDay == startDay + InstallmentSpacing * k + InstallmentSpacing;
  }

  /** The sum of the amounts of some installments. */
  function SumAmounts(rows: seq<Installment>): int {
    if |rows| == 0 then 0 else SumAmounts(rows[..|rows| - 1]) + rows[|rows| - 1].amount
  }

  /** Rows that all carry the same amount add up to that amount times their
      number. */
  lemma {:induction false} SumOfEqualAmounts(rows: seq<Installment>, amount: int)
    requires forall k :: 0 <= k < |rows| ==> rows[k].amount == amount
    ensures SumAmounts(rows) == |rows| * amount
  {
    if |rows| > 0 {
      SumOfEqualAmounts(rows[..|rows| - 1], amount);
    }
  }

  /** With `amount = floor(total / count)` the schedule never asks for more
      than the total and falls short of it by less than one installment per
      row: the remainder of the division is never billed. */
  lemma ScheduleSum(learnerId: nat, name: string, phone: Option<string>,
                    total: int, count: nat, startDay: int)
    requires total > 0 && count > 0
    ensures var rows := Schedule(learnerId, name, phone, count, total / count, startDay);
            && SumAmounts(rows) == count * (total / count)
            && total - count < SumAmounts(rows) <= total
  {
    var rows := Schedule(learnerId, name, phone, count, total / count, startDay);
    SumOfEqualAmounts(rows, total / count);
  }

  // ---------------------------------------------------------------------------
  // saveLearner
  // ---------------------------------------------------------------------------

  /** The start day `parseDate` yields for the start-date field, or `None`
      when it returns `null`. `isoAccepts` stands for the browser's date
      string parser and `dayOf` for the day the resulting `Date` falls on. */
  function StartDay(text: string, isoAccepts: string -> bool, dayOf: DateRoute -> int): (r: Option<int>)
    ensures r.Some? <==> ParseDateAccepts(text, isoAccepts)
  {
    if ParseDateAccepts(text, isoAccepts) then Some(dayOf(ParseDateRoute(text))) else None
  }

  /** The payment plan of a saved learner. */
  datatype Plan = Plan(startDay: int, total: nat, count: nat, amount: int)

  /** The plan part of `saveLearner` (learners.js:116-148): the start day,
      total, count and per-installment amount, or the first reason to refuse. */
  function PlanValues(form: LearnerForm, isoAccepts: string -> bool, dayOf: DateRoute -> int)
    : (r: Result<Plan, SaveError>)
    ensures var start := Trim(form.startDate);
            var total := IntOrZero(RemoveCommas(form.totalAmount));
            var count := IntOrZero(form.installmentCount);
            && (r == Err(StartDateRequired) <==> start == "")
            && (r == Err(StartDateInvalid) <==> start != "" && !ParseDateAccepts(start, isoAccepts))
            && (r == Err(TotalNotPositive) <==> start != "" && ParseDateAccepts(start, isoAccepts) && total <= 0)
            && (r == Err(CountNotPositive) <==>
                  start != "" && ParseDateAccepts(start, isoAccepts) && total > 0 && count <= 0)
            && (r.Ok? <==> start != "" && ParseDateAccepts(start, isoAccepts) && total > 0 && count > 0)
    ensures r.Err? ==> !r.error.NameRequired? && !r.error.PhoneNotElevenDigits?
    ensures r.Ok? ==> r.value.total > 0 && r.value.count > 0 && r.value.amount == r.value.total / r.value.count
    ensures r.Ok? ==> r.value.total == IntOrZero(RemoveCommas(form.totalAmount))
                      && r.value.count == IntOrZero(form.installmentCount)
  {
    var startText := Trim(form.startDate);
    if startText == "" then Err(StartDateRequired)
    else
      var start := StartDay(startText, isoAccepts, dayOf);
      if start.None? then Err(StartDateInvalid)
      else
        var total := IntOrZero(RemoveCommas(form.totalAmount));
        if total <= 0 then Err(TotalNotPositive)
        else
          var count := IntOrZero(form.installmentCount);
          if count <= 0 then Err(CountNotPositive)
          else Ok(Plan(start.value, total, count, total / count))
  }

  /** The learner row `saveLearner` writes once the form has passed its
      checks (learners.js:150-164); the plan columns are filled only when
      there is a plan. */
  function LearnerRowOf(form: LearnerForm, name: string, phone: string, plan: Option<Plan>)
    : (row: LearnerRow)
    ensures row.name == name && row.phone == NullIfEmpty(phone) && row.hasPlan == form.hasPlan
    ensures plan.None? ==>
              row.startDay.None? && row.totalAmount.None? && row.installmentCount.None? && row.installmentAmount.None?
    ensures plan.Some? ==>
              && row.startDay == Some(plan.value.startDay) && row.totalAmount == Some(plan.value.total as int)
              && row.installmentCount == Some(plan.value.count as int) && row.installmentAmount == Some(plan.value.amount)
  {
    LearnerRow(
      name, NullIfEmpty(phone),
      OptionalText(form.age), OptionalText(form.level), OptionalText(form.goal),
      OptionalText(form.occupation), OptionalText(form.notes),
      form.hasPlan,
      if plan.Some? then Some(plan.value.startDay) else None,
      if plan.Some? then Some(plan.value.total as int) else None,
      if plan.Some? then Some(plan.value.count as int) else None,
      if plan.Some? then Some(plan.value.amount) else None)
  }

  /** The schedule a new learner gets: `generateInstallments` for a plan,
      nothing otherwise. */
  function ScheduleFor(learnerId: nat, name: string, phone: Option<string>, plan: Option<Plan>): (rows: seq<Installment>)
    ensures plan.None? ==> rows == []
    ensures plan.Some? ==> |rows| == plan.value.count
  {
    match plan
    case None => []
    case Some(p) => Schedule(learnerId, name, phone, p.count, p.amount, p.startDay)
  }

  /** The name and phone checks of learners.js:104-114: the trimmed name
      must not be empty, and the phone digits must be absent or exactly
      eleven. */
  function ContactValues(form: LearnerForm): (r: Result<(string, string), SaveError>)
    ensures r == Err(NameRequired) <==> Trim(form.name) == ""
    ensures r == Err(PhoneNotElevenDigits) <==>
              Trim(form.name) != "" && PhoneDigits(form) != "" && |PhoneDigits(form)| != PhoneLength
    ensures r.Ok? <==> Trim(form.name) != "" && (PhoneDigits(form) == "" || |PhoneDigits(form)| == PhoneLength)
    ensures r.Ok? ==> r.value == (Trim(form.name), PhoneDigits(form))
  {
    var name := Trim(form.name);
    if name == "" then Err(NameRequired)
    else
      var phone := PhoneDigits(form);
      if phone != "" && |phone| != PhoneLength then Err(PhoneNotElevenDigits)
      else Ok((name, phone))
  }

  /** `saveLearner`. `editing` is the learner being edited, if any;
      `newId` is the id the store gives a newly inserted learner. A refused
      form writes nothing. */
  function SaveLearner(form: LearnerForm, editing: Option<nat>, newId: nat,
                       isoAccepts: string -> bool, dayOf: DateRoute -> int)
    : (r: Result<LearnerWrite, SaveError>)
    ensures r == Err(NameRequired) <==> Trim(form.name) == ""
    ensures Trim(form.name) != "" ==>
              (r == Err(PhoneNotElevenDigits) <==> PhoneDigits(form) != "" && |PhoneDigits(form)| != PhoneLength)
    ensures r.Ok? ==> r.value.Row().name == Trim(form.name) != ""
    ensures r.Ok? ==> r.value.Row().phone == NullIfEmpty(PhoneDigits(form))
    ensures r.Ok? && r.value.Row().phone.Some? ==>
              |r.value.Row().phone.value| == PhoneLength && AllAsciiDigits(r.value.Row().phone.value)
    ensures r.Ok? ==> (r.value.UpdateLearner? <==> editing.Some?)
    ensures r.Ok? && editing.Some? ==> r.value.id == editing.value
  {
    var contact := ContactValues(form);
    if contact.Err? then Err(contact.error)
    else
      var plan := if form.hasPlan then PlanValues(form, isoAccepts, dayOf) else Ok(Plan(0, 0, 0, 0));
      if plan.Err? then Err(plan.error)
      else
        var chosen := if form.hasPlan then Some(plan.value) else None;
        var row := LearnerRowOf(form, contact.value.0, contact.value.1, chosen);
        if editing.Some? then Ok(UpdateLearner(editing.value, row))
        else Ok(InsertLearner(row, ScheduleFor(newId, row.name, row.phone, chosen)))
  }

  /** What a saved form writes in the plan columns and the schedule:
      nothing without a plan; with one, a positive total and count, the
      floor of their quotient as the amount, and, for a new learner only,
      the schedule `generateInstallments` builds from them. */
  lemma SavedPlan(form: LearnerForm, editing: Option<nat>, newId: nat,
                  isoAccepts: string -> bool, dayOf: DateRoute -> int)
    ensures var r := SaveLearner(form, editing, newId, isoAccepts, dayOf);
            r.Ok? ==> r.value.Row().hasPlan == form.hasPlan
    ensures var r := SaveLearner(form, editing, newId, isoAccepts, dayOf);
            r.Ok? && !form.hasPlan ==>
              var row := r.value.Row();
              row.startDay.None? && row.totalAmount.None? && row.installmentCount.None? && row.installmentAmount.None?
    ensures var r := SaveLearner(form, editing, newId, isoAccepts, dayOf);
            r.Ok? && form.hasPlan ==>
              var row := r.value.Row();
              && row.startDay.Some? && row.totalAmount.Some? && row.installmentCount.Some? && row.installmentAmount.Some?
              && row.totalAmount.value > 0 && row.installmentCount.value > 0
              && row.installmentAmount.value == row.totalAmount.value / row.installmentCount.value
    ensures var r := SaveLearner(form, editing, newId, isoAccepts, dayOf);
            r.Ok? && r.value.InsertLearner? ==>
              var row := r.value.row;
              r.value.schedule ==
                if row.hasPlan
                then Schedule(newId, row.name, row.phone, row.installmentCount.value,
                              row.installmentAmount.value, row.startDay.value)
                else []
  {
  }

  /** A form is refused exactly when its name or phone is refused, or when
      it has a plan and the plan is refused; the plan's checks run only
      after the name and phone have passed. */
  lemma SaveRefusals(form: LearnerForm, editing: Option<nat>, newId: nat,
                     isoAccepts: string -> bool, dayOf: DateRoute -> int)
    ensures var r := SaveLearner(form, editing, newId, isoAccepts, dayOf);
            r.Err? <==> ContactValues(form).Err? || (form.hasPlan && PlanValues(form, isoAccepts, dayOf).Err?)
    ensures var r := SaveLearner(form, editing, newId, isoAccepts, dayOf);
            ContactValues(form).Err? ==> r == Err(ContactValues(form).error)
    ensures var r := SaveLearner(form, editing, newId, isoAccepts, dayOf);
            ContactValues(form).Ok? && form.hasPlan && PlanValues(form, isoAccepts, dayOf).Err? ==>
              r == Err(PlanValues(form, isoAccepts, dayOf).error)
  {
  }

  /** A named learner without a plan whose phone was typed in Persian
      digits is saved, with no phone. */
  lemma PersianPhoneSavedWithout(form: LearnerForm, editing: Option<nat>, newId: nat,
                                 isoAccepts: string -> bool, dayOf: DateRoute -> int)
    requires Trim(form.name) != "" && !form.hasPlan && Digits.NoAsciiDigits(form.phone)
    ensures var r := SaveLearner(form, editing, newId, isoAccepts, dayOf);
            r.Ok? && r.value.Row().phone.None?
  {
    PersianPhoneIsDropped(form);
  }

  /** Only a new learner with a plan gets installments; editing a learner
      never writes installments, whatever the plan fields say. */
  lemma InstallmentsOnlyOnInsert(form: LearnerForm, editing: Option<nat>, newId: nat,
                                 isoAccepts: string -> bool, dayOf: DateRoute -> int)
    ensures var r := SaveLearner(form, editing, newId, isoAccepts, dayOf);
            r.Ok? && r.value.InsertLearner? && |r.value.schedule| > 0 ==> editing.None? && form.hasPlan
    ensures var r := SaveLearner(form, editing, newId, isoAccepts, dayOf);
            r.Ok? && form.hasPlan && editing.None? ==>
              |r.value.schedule| == r.value.row.installmentCount.value
              && PlannedTotal(r.value.row) - |r.value.schedule| < SumAmounts(r.value.schedule) <= PlannedTotal(r.value.row)
  {
    var r := SaveLearner(form, editing, newId, isoAccepts, dayOf);
    if r.Ok? && form.hasPlan && editing.None? {
      var row := r.value.row;
      ScheduleSum(newId, row.name, row.phone, row.totalAmount.value, row.installmentCount.value, row.startDay.value);
    }
  }

  /** The total amount of a saved plan. */
  function PlannedTotal(row: LearnerRow): int {
    row.totalAmount.GetOr(0)
  }

  // ---------------------------------------------------------------------------
  // refreshLearners: the per-learner counts
  // ---------------------------------------------------------------------------

  /** Where an installment falls in a learner's counts on day `today`. */
  datatype Standing = Settled | Upcoming | Late

  /** learners.js:286-296: a paid row is settled; an unpaid row is late when
      its due day is before today, and upcoming otherwise, so a row due
      today is still upcoming. */
  function StandingOn(inst: Installment, today: int): (s: Standing)
    ensures s == Settled <==> inst.status == Paid
    ensures s == Late <==> inst.status != Paid && inst.dueDay < today
    ensures s == Upcoming <==> inst.status != Paid && inst.dueDay >= today
  {
    if inst.status == Paid then Settled
    else if inst.dueDay < today then Late
    else Upcoming
  }

  /** The installments of one learner, in their original order
      (`installments.filter(inst => inst.learner_id === learner.id)`). Each
      of the learner's rows is kept as often as it occurs, and no other row
      is kept; the order is `OwnInstallmentsConcat`. */
  function OwnInstallments(all: seq<Installment>, learnerId: nat): (r: seq<Installment>)
    ensures |r| <= |all|
    ensures forall k :: 0 <= k < |r| ==> r[k].learnerId == learnerId && r[k] in all
    ensures forall k :: 0 <= k < |all| && all[k].learnerId == learnerId ==> all[k] in r
    ensures forall x :: multiset(r)[x] == if x.learnerId == learnerId then multiset(all)[x] else 0
  {
    if |all| == 0 then []
    else
      var rest := OwnInstallments(all[1..], learnerId);
      assert all == [all[0]] + all[1..];
      if all[0].learnerId == learnerId then [all[0]] + rest else rest
  }

  /** Filtering works piece by piece: the learner's rows of `a + b` are those
      of `a` followed by those of `b`. */
  lemma {:induction false} OwnInstallmentsConcat(a: seq<Installment>, b: seq<Installment>, learnerId: nat)
    ensures OwnInstallments(a + b, learnerId) == OwnInstallments(a, learnerId) + OwnInstallments(b, learnerId)
  {
    if |a| == 0 {
      assert a + b == b;
    } else {
      assert (a + b)[0] == a[0];
      assert (a + b)[1..] == a[1..] + b;
      OwnInstallmentsConcat(a[1..], b, learnerId);
    }
  }

  /** How many of `rows` stand at `s` on day `today`. */
  function CountStanding(rows: seq<Installment>, today: int, s: Standing): nat {
    if |rows| == 0 then 0
    else CountStanding(rows[..|rows| - 1], today, s) + (if StandingOn(rows[|rows| - 1], today) == s then 1 else 0)
  }

  /** Every row stands at exactly one of the three, so the three counts add
      up to the number of rows. */
  lemma {:induction false} StandingsPartition(rows: seq<Installment>, today: int)
    ensures CountStanding(rows, today, Settled) + CountStanding(rows, today, Upcoming)
            + CountStanding(rows, today, Late) == |rows|
  {
    if |rows| > 0 {
      StandingsPartition(rows[..|rows| - 1], today);
    }
  }

  /** The three counts shown in a learner's row. */
  datatype Tally = Tally(paid: nat, pending: nat, overdue: nat)

  /** The counting loop of learners.js:279-299 over one learner's
      installments. Without a plan all three counts stay zero; with a plan
      they count the settled, upcoming and late rows and together cover
      every installment of the learner. */
  method TallyLearner(hasPlan: bool, all: seq<Installment>, learnerId: nat, today: int) returns (t: Tally)
    ensures !hasPlan ==> t == Tally(0, 0, 0)
    ensures hasPlan ==>
              var own := OwnInstallments(all, learnerId);
              && t.paid == CountStanding(own, today, Settled)
              && t.pending == CountStanding(own, today, Upcoming)
              && t.overdue == CountStanding(own, today, Late)
              && t.paid + t.pending + t.overdue == |own|
  {
    var own := OwnInstallments(all, learnerId);
    var paid, pending, overdue := 0, 0, 0;
    if hasPlan {
      var i := 0;
      while i < |own|
        invariant 0 <= i <= |own|
        invariant paid == CountStanding(own[..i], today, Settled)
        invariant pending == CountStanding(own[..i], today, Upcoming)
        invariant overdue == CountStanding(own[..i], today, Late)
      {
        assert own[..i + 1][..i] == own[..i];
        var inst := own[i];
        if inst.status == Paid {
          paid := paid + 1;
        } else if inst.dueDay < today {
          overdue := overdue + 1;
        } else {
          pending := pending + 1;
        }
        i := i + 1;
      }
      assert own[..|own|] == own;
      StandingsPartition(own, today);
    }
    t := Tally(paid, pending, overdue);
  }

  /** A stored learner: the row and the id the store gave it. */
  datatype StoredLearner = StoredLearner(id: nat, row: LearnerRow)

  /** The learners `refreshLearners` lists for a search term, in the order
      the store returned them. */
  function SearchLearners(learners: seq<StoredLearner>, typed: string): (r: seq<StoredLearner>)
    ensures |r| <= |learners|
    ensures forall k :: 0 <= k < |r| ==> r[k] in learners && MatchesSearch(Some(r[k].row.name), typed)
    ensures forall k :: 0 <= k < |learners| && MatchesSearch(Some(learners[k].row.name), typed) ==> learners[k] in r
    ensures |learners| == 1 ==> r == if MatchesSearch(Some(learners[0].row.name), typed) then learners else []
  {
    if |learners| == 0 then []
    else
      var rest := SearchLearners(learners[1..], typed);
      if MatchesSearch(Some(learners[0].row.name), typed) then [learners[0]] + rest else rest
  }

  /** The search works piece by piece, so the matching learners keep the
      store's order and each appears as often as it occurs. */
  lemma {:induction false} SearchLearnersConcat(a: seq<StoredLearner>, b: seq<StoredLearner>, typed: string)
    ensures SearchLearners(a + b, typed) == SearchLearners(a, typed) + SearchLearners(b, typed)
  {
    if |a| == 0 {
      assert a + b == b;
    } else {
      assert (a + b)[0] == a[0];
      assert (a + b)[1..] == a[1..] + b;
      SearchLearnersConcat(a[1..], b, typed);
    }
  }

  /** An empty search term lists every learner, in order. */
  lemma {:induction false} EmptySearchListsAll(learners: seq<StoredLearner>)
    ensures SearchLearners(learners, "") == learners
  {
    if |learners| > 0 {
      EmptySearchListsAll(learners[1..]);
      assert [learners[0]] + learners[1..] == learners;
    }
  }
}

=== FILE: records.dfy ===
/**
  The installment record shared by the learner, installment and payment
  screens, and the two small text conventions they all use: a trimmed
  field stored as `null` when empty, and the case-insensitive name search.
*/
module Records {
  import opened Wrappers
  import opened Text

  /** The two values of an installment's `status` column: `'در انتظار'`
      (waiting) and `'پرداخت شده'` (paid). */
  datatype Status = Pending | Paid

  /** One row of the `installments` table. Dates are whole day numbers; the
      payment date is kept as the text the user typed, as the source stores
      it. */
  datatype Installment = Installment(
    learnerId: nat,
    learnerName: Option<string>,
    phone: Option<string>,
    amount: int,
    dueDay: int,
    status: Status,
    paymentDate: Option<string>,
    paymentNote: Option<string>,
    installmentNote: Option<string>,
    number: int,
    totalInstallments: int)

  /** The `text || null` idiom: the empty string is stored as `null`. */
  function NullIfEmpty(text: string): (r: Option<string>)
    ensures r.None? <==> text == ""
    ensures r.Some? ==> r.value == text
  {
    if text == "" then None else Some(text)
  }

  /** JavaScript truthiness of a nullable text column: present and non-empty. */
  predicate HasText(field: Option<string>) {
    field.Some? && field.value != ""
  }

  /** The `x || ''` idiom on a nullable text column. */
  function TextOrEmpty(field: Option<string>): (r: string)
    ensures r != "" <==> HasText(field)
  {
    field.GetOr("")
  }

  /** A stored trimmed field is never the empty string: it is `null` or text. */
  lemma NullIfEmptyHasText(text: string)
    ensures HasText(NullIfEmpty(text)) <==> text != ""
    ensures TextOrEmpty(NullIfEmpty(text)) == text
  {
  }

  /** The search filter of the learner, installment and payment lists: the
      typed term is lower-cased, an empty term keeps everything, and
      otherwise the row's name must be present and contain the term once
      lower-cased itself. */
  function MatchesSearch(name: Option<string>, typed: string): (b: bool)
    ensures typed == "" ==> b
    ensures b && name.None? ==> Lower(typed) == ""
  {
    var term := Lower(typed);
    term == "" || (name.Some? && Contains(Lower(name.value), term))
  }

  /** Search is insensitive to the case of the typed term, lets everything
      through when the term is empty, drops a row with no name otherwise,
      and keeps a row whose name contains the term as typed. */
  lemma SearchFacts(name: Option<string>, typed: string)
    ensures MatchesSearch(name, typed) <==> MatchesSearch(name, Lower(typed))
    ensures typed == "" ==> MatchesSearch(name, typed)
    ensures typed != "" && name.None? ==> !MatchesSearch(name, typed)
    ensures name.Some? && Contains(name.value, typed) ==> MatchesSearch(name, typed)
  {
    LowerIdempotent(typed);
    if name.Some? && Contains(name.value, typed) {
      LowerKeepsContains(name.value, typed);
    }
  }

  /** Lower-casing both sides keeps an occurrence. */
  lemma LowerKeepsContains(s: string, t: string)
    requires Contains(s, t)
    ensures Contains(Lower(s), Lower(t))
  {
    ContainsIffOccurs(s, t);
    var i: nat :| OccursAt(s, t, i);
    assert OccursAt(Lower(s), Lower(t), i) by {
      assert Lower(s)[i..i + |t|] == Lower(t) by {
        forall k | 0 <= k < |t| ensures Lower(s)[i..i + |t|][k] == Lower(t)[k] {
          assert s[i..i + |t|][k] == t[k];
        }
      }
    }
    ContainsIffOccurs(Lower(s), Lower(t));
  }
}

=== FILE: reminders.dfy ===
/**
  The reminders screen of reminders.js: which reminders the filter lists,
  the state each one shows, the name and description shown with it, and
  marking one completed. Times are whole timestamps; the start of today and
  of tomorrow are given.
*/
module Reminders {
  import opened Wrappers
  import opened Text
  import opened Records

  /** One row of the `reminders` table. */
  datatype Reminder = Reminder(
    learnerId: nat,
    learnerName: Option<string>,
    at: int,
    description: Option<string>,
    sent: bool,
    completed: bool,
    completedAt: Option<int>)

  /** The state shown for a reminder: `'تکمیل شده'` (completed),
      `'ارسال شده'` (sent), `'پیگیری نشده'` (not followed up, its time has
      passed) and `'در انتظار'` (waiting). */
  datatype ReminderState = Completed | Sent | NotFollowedUp | Waiting

  /** reminders.js:63-75 at time `now`: completed first, then sent, then
      overdue when its time is before now, otherwise waiting. */
  function StateAt(rem: Reminder, now: int): (s: ReminderState)
    ensures s == Completed <==> rem.completed
    ensures s == Sent <==> !rem.completed && rem.sent
    ensures s == NotFollowedUp <==> !rem.completed && !rem.sent && rem.at < now
    ensures s == Waiting <==> !rem.completed && !rem.sent && rem.at >= now
  {
    if rem.completed then Completed
    else if rem.sent then Sent
    else if rem.at < now then NotFollowedUp
    else Waiting
  }

  /** The state changes only once, as time passes: a reminder waiting at
      one time is either still waiting or not followed up later, and one
      that is not followed up stays so. */
  lemma StateOverTime(rem: Reminder, now: int, later: int)
    requires now <= later
    ensures StateAt(rem, now) == NotFollowedUp ==> StateAt(rem, later) == NotFollowedUp
    ensures StateAt(rem, now) == Waiting ==> StateAt(rem, later) in {Waiting, NotFollowedUp}
    ensures StateAt(rem, now) in {Completed, Sent} ==> StateAt(rem, later) == StateAt(rem, now)
  {
  }

  /** The choices of the reminder filter. */
  datatype ReminderFilter = TodayOnly | CompletedOnly | OpenReminders

  /** `filter = value || 'all'`: `'today'` and `'completed'` pick their
      filter; every other value, `'all'` included, lists the open reminders. */
  function ReminderFilterOf(value: string): (f: ReminderFilter)
    ensures f == TodayOnly <==> value == "today"
    ensures f == CompletedOnly <==> value == "completed"
  {
    if value == "today" then TodayOnly
    else if value == "completed" then CompletedOnly
    else OpenReminders
  }

  /** The query conditions of reminders.js:22-31: the today filter keeps
      open reminders timed in `[todayStart, tomorrowStart)`, the completed
      filter keeps completed ones, and every other choice keeps open ones.
      Only the completed filter ever keeps a completed reminder, and the
      today filter keeps nothing timed outside today. */
  function Selected(rem: Reminder, f: ReminderFilter, todayStart: int, tomorrowStart: int): (b: bool)
    ensures f == CompletedOnly ==> (b <==> rem.completed)
    ensures f != CompletedOnly && b ==> !rem.completed
    ensures f == TodayOnly && b ==> todayStart <= rem.at < tomorrowStart
  {
    match f
    case TodayOnly => !rem.completed && todayStart <= rem.at < tomorrowStart
    case CompletedOnly => rem.completed
    case OpenReminders => !rem.completed
  }

  /** The reminders listed for a filter, in the order the store returned
      them: exactly the selected ones. */
  function ListReminders(rems: seq<Reminder>, f: ReminderFilter, todayStart: int, tomorrowStart: int)
    : (r: seq<Reminder>)
    ensures |r| <= |rems|
    ensures forall k :: 0 <= k < |r| ==> r[k] in rems && Selected(r[k], f, todayStart, tomorrowStart)
    ensures forall k :: 0 <= k < |rems| && Selected(rems[k], f, todayStart, tomorrowStart) ==> rems[k] in r
    ensures |rems| == 1 ==> r == if Selected(rems[0], f, todayStart, tomorrowStart) then rems else []
  {
    if |rems| == 0 then []
    else
      var rest := ListReminders(rems[1..], f, todayStart, tomorrowStart);
      if Selected(rems[0], f, todayStart, tomorrowStart) then [rems[0]] + rest else rest
  }

  /** Listing works piece by piece, so the list keeps the store's
      `reminder_at` order and each reminder as often as it occurs. */
  lemma {:induction false} ListRemindersConcat(a: seq<Reminder>, b: seq<Reminder>, f: ReminderFilter,
                                               todayStart: int, tomorrowStart: int)
    ensures ListReminders(a + b, f, todayStart, tomorrowStart)
            == ListReminders(a, f, todayStart, tomorrowStart) + ListReminders(b, f, todayStart, tomorrowStart)
  {
    if |a| == 0 {
      assert a + b == b;
    } else {
      assert (a + b)[0] == a[0];
      assert (a + b)[1..] == a[1..] + b;
      ListRemindersConcat(a[1..], b, f, todayStart, tomorrowStart);
    }
  }

  /** The completed list shows only completed reminders, the others never
      show one; today's list is part of the open list; a reminder timed at
      the first instant of tomorrow is not in today's list, one timed at the
      first instant of today is. */
  lemma FilterFacts(rems: seq<Reminder>, todayStart: int, tomorrowStart: int, now: int)
    ensures forall x :: x in ListReminders(rems, CompletedOnly, todayStart, tomorrowStart) ==>
              StateAt(x, now) == Completed
    ensures forall x :: x in ListReminders(rems, OpenReminders, todayStart, tomorrowStart) ==>
              StateAt(x, now) != Completed
    ensures forall x :: x in ListReminders(rems, TodayOnly, todayStart, tomorrowStart) ==>
              x in ListReminders(rems, OpenReminders, todayStart, tomorrowStart) && StateAt(x, now) != Completed
    ensures forall x :: x in ListReminders(rems, TodayOnly, todayStart, tomorrowStart) ==>
              todayStart <= x.at < tomorrowStart
    ensures forall x :: x in rems && !x.completed && x.at == todayStart && todayStart < tomorrowStart ==>
              x in ListReminders(rems, TodayOnly, todayStart, tomorrowStart)
    ensures forall x :: x in ListReminders(rems, TodayOnly, todayStart, tomorrowStart) ==> x.at != tomorrowStart
  {
    forall x | x in rems && !x.completed && x.at == todayStart && todayStart < tomorrowStart
      ensures x in ListReminders(rems, TodayOnly, todayStart, tomorrowStart)
    {
      var k :| 0 <= k < |rems| && rems[k] == x;
    }
  }

  /** The open and completed lists split the reminders between them:
      their lengths add up to the number of reminders. */
  lemma {:induction false} OpenCompletedSplit(rems: seq<Reminder>, todayStart: int, tomorrowStart: int)
    ensures |ListReminders(rems, OpenReminders, todayStart, tomorrowStart)|
            + |ListReminders(rems, CompletedOnly, todayStart, tomorrowStart)| == |rems|
  {
    if |rems| > 0 {
      OpenCompletedSplit(rems[1..], todayStart, tomorrowStart);
    }
  }

  /** `markReminderCompleted` (reminders.js:123-139): completed at `now`. */
  function MarkCompleted(rem: Reminder, now: int): (r: Reminder)
    ensures r.completed && r.completedAt == Some(now)
    ensures r.learnerId == rem.learnerId && r.learnerName == rem.learnerName && r.at == rem.at
    ensures r.description == rem.description && r.sent == rem.sent
  {
    rem.(completed := true, completedAt := Some(now))
  }

  /** A reminder marked completed shows as completed from then on, leaves
      the open and today lists and appears in the completed list. */
  lemma MarkingMovesReminder(rem: Reminder, now: int, later: int, todayStart: int, tomorrowStart: int)
    ensures var done := MarkCompleted(rem, now);
            && StateAt(done, later) == Completed
            && ListReminders([done], CompletedOnly, todayStart, tomorrowStart) == [done]
            && ListReminders([done], OpenReminders, todayStart, tomorrowStart) == []
            && ListReminders([done], TodayOnly, todayStart, tomorrowStart) == []
  {
    var done := MarkCompleted(rem, now);
    assert [done][1..] == [];
  }

  /** The name shown for a reminder (reminders.js:44-49 and 77): the
      learner's current name when the learner is known and named, else the
      name stored with the reminder, else nothing. `names` maps each of the
      user's learners to its name, empty when it has none. */
  function DisplayName(rem: Reminder, names: map<nat, string>): (r: string)
    ensures rem.learnerId in names && names[rem.learnerId] != "" ==> r == names[rem.learnerId]
    ensures !(rem.learnerId in names && names[rem.learnerId] != "") ==> r == TextOrEmpty(rem.learnerName)
  {
    if rem.learnerId in names && names[rem.learnerId] != "" then names[rem.learnerId]
    else TextOrEmpty(rem.learnerName)
  }

  /** The shown name is empty only when neither source has a name, and it
      follows a renamed learner: renaming changes what the reminder shows. */
  lemma DisplayNameFacts(rem: Reminder, names: map<nat, string>, newName: string)
    ensures DisplayName(rem, names) == "" <==>
              !(rem.learnerId in names && names[rem.learnerId] != "") && !HasText(rem.learnerName)
    ensures newName != "" ==> DisplayName(rem, names[rem.learnerId := newName]) == newName
    ensures DisplayName(rem, map[]) == TextOrEmpty(rem.learnerName)
  {
  }

  /** The description cell (reminders.js:79-82 and 89): the first 50
      characters, followed by `...` exactly when there is more. */
  function DescriptionPreview(rem: Reminder): (r: string)
    ensures var full := TextOrEmpty(rem.description);
            && (|full| <= PreviewLength ==> r == full)
            && (|full| > PreviewLength ==> r == full[..PreviewLength] + "...")
  {
    Preview(TextOrEmpty(rem.description))
  }

  /** A preview never runs past 53 characters and always starts like the
      description. */
  lemma DescriptionPreviewShape(rem: Reminder)
    ensures |DescriptionPreview(rem)| <= PreviewLength + 3
    ensures var full := TextOrEmpty(rem.description);
            var n := if |full| < PreviewLength then |full| else PreviewLength;
            DescriptionPreview(rem)[..n] == full[..n]
  {
    PreviewShape(TextOrEmpty(rem.description));
  }
}

=== FILE: text.dfy ===
/**
  The handful of JavaScript string built-ins the application relies on,
  modelled on `seq<char>`: `trim`, `toLowerCase` (ASCII letters only),
  `includes`, `split` on one character, `parseInt` (decimal), `String(n)`
  for naturals, `padStart(2, '0')`, and the 50-character preview used for
  notes and reminder descriptions.
*/
module Text {
  import opened Wrappers

  // ---------------------------------------------------------------------------
  // Whitespace and trim
  // ---------------------------------------------------------------------------

  /** The characters `String.prototype.trim` removes: the ECMAScript WhiteSpace
      set (TAB, VT, FF, ZWNBSP and every Zs space) and the line terminators. */
  predicate IsWhitespace(c: char) {
    || c == '\t' || c == '\n' || c == '\U{000B}' || c == '\U{000C}' || c == '\r'
    || c == ' ' || c == '\U{00A0}' || c == '\U{1680}'
    || ('\U{2000}' <= c <= '\U{200A}')
    || c == '\U{2028}' || c == '\U{2029}' || c == '\U{202F}' || c == '\U{205F}'
    || c == '\U{3000}' || c == '\U{FEFF}'
  }

  /** `s` with its leading whitespace removed. */
  function TrimStart(s: string): (r: string)
    ensures |r| <= |s| && r == s[|s| - |r|..]
    ensures forall i :: 0 <= i < |s| - |r| ==> IsWhitespace(s[i])
    ensures |r| > 0 ==> !IsWhitespace(r[0])
  {
    if |s| > 0 && IsWhitespace(s[0]) then TrimStart(s[1..]) else s
  }

  /** `s` with its trailing whitespace removed. */
  function TrimEnd(s: string): (r: string)
    ensures |r| <= |s| && r == s[..|r|]
    ensures forall i :: |r| <= i < |s| ==> IsWhitespace(s[i])
    ensures |r| > 0 ==> !IsWhitespace(r[|r| - 1])
  {
    if |s| > 0 && IsWhitespace(s[|s| - 1]) then TrimEnd(s[..|s| - 1]) else s
  }

  /** `s.trim()`: no longer than `s`, and with no whitespace left at
      either end. */
  function Trim(s: string): (r: string)
    ensures |r| <= |s|
    ensures |r| > 0 ==> !IsWhitespace(r[0]) && !IsWhitespace(r[|r| - 1])
  {
    var t := TrimStart(s);
    var inner := TrimEnd(t);
    assert |inner| > 0 ==> inner[0] == t[0];
    inner
  }

  /** A string with no whitespace at either end is its own trim; in
      particular trimming is idempotent. */
  lemma TrimFixesTrimmed(s: string)
    requires |s| > 0 ==> !IsWhitespace(s[0]) && !IsWhitespace(s[|s| - 1])
    ensures Trim(s) == s
  {
  }

  /** Trim removes only whitespace: whatever it keeps is a contiguous piece of
      `s`, and an all-whitespace string trims to the empty string. */
  lemma TrimIsInnerSlice(s: string)
    ensures exists a, b :: 0 <= a <= b <= |s| && Trim(s) == s[a..b]
    ensures (forall i :: 0 <= i < |s| ==> IsWhitespace(s[i])) ==> Trim(s) == ""
  {
    var t := TrimStart(s);
    var a := |s| - |t|;
    var r := TrimEnd(t);
    assert Trim(s) == s[a..a + |r|];
  }

  // ---------------------------------------------------------------------------
  // Lower case and substring search
  // ---------------------------------------------------------------------------

  /** `toLowerCase` on one character; only the ASCII letters A-Z have a lower
      case here (Persian script has no case). */
  function LowerChar(c: char): (r: char)
    ensures 'A' <= c <= 'Z' ==> 'a' <= r <= 'z' && r as int == c as int + 32
    ensures !('A' <= c <= 'Z') ==> r == c
  {
    if 'A' <= c <= 'Z' then (c as int + 32) as char else c
  }

  /** `s.toLowerCase()`. */
  function Lower(s: string): (r: string)
    ensures |r| == |s|
    ensures forall i :: 0 <= i < |s| ==> r[i] == LowerChar(s[i])
  {
    if |s| == 0 then "" else [LowerChar(s[0])] + Lower(s[1..])
  }

  /** Lower-casing twice is lower-casing once. */
  lemma LowerIdempotent(s: string)
    ensures Lower(Lower(s)) == Lower(s)
  {
    assert forall i :: 0 <= i < |s| ==> LowerChar(LowerChar(s[i])) == LowerChar(s[i]);
  }

  /** `t` occurs in `s` at position `i`. */
  predicate OccursAt(s: string, t: string, i: nat) {
    i + |t| <= |s| && s[i..i + |t|] == t
  }

  /** `s.includes(t)`: a text contains itself, and never anything longer
      than itself. */
  function Contains(s: string, t: string): (b: bool)
    ensures b ==> |t| <= |s|
    ensures t == s ==> b
    decreases |s|
  {
    OccursAt(s, t, 0) || (|s| > 0 && Contains(s[1..], t))
  }

  /** `includes` means "occurs at some position", in both directions. */
  lemma {:induction false} ContainsIffOccurs(s: string, t: string)
    ensures Contains(s, t) <==> exists i: nat :: OccursAt(s, t, i)
    decreases |s|
  {
    if |s| > 0 {
      ContainsIffOccurs(s[1..], t);
      if exists i: nat :: OccursAt(s[1..], t, i) {
        var i: nat :| OccursAt(s[1..], t, i);
        assert s[i + 1..i + 1 + |t|] == s[1..][i..i + |t|];
        assert OccursAt(s, t, i + 1);
      }
      if exists i: nat :: OccursAt(s, t, i) {
        var i: nat :| OccursAt(s, t, i);
        if i > 0 {
          assert s[1..][i - 1..i - 1 + |t|] == s[i..i + |t|];
          assert OccursAt(s[1..], t, i - 1);
        }
      }
    }
  }

  /** Every string contains the empty string, so an empty search term keeps
      every row; and only a string at least as long as `t` can contain it. */
  lemma ContainsBasics(s: string, t: string)
    ensures Contains(s, "")
    ensures Contains(s, t) ==> |t| <= |s|
    decreases |s|
  {
    assert OccursAt(s, "", 0);
    if |s| > 0 && !OccursAt(s, t, 0) && Contains(s[1..], t) {
      ContainsBasics(s[1..], t);
    }
  }

  // ---------------------------------------------------------------------------
  // Splitting on one separator character
  // ---------------------------------------------------------------------------

  /** Number of occurrences of `c` in `s`. */
  function CountChar(s: string, c: char): nat {
    if |s| == 0 then 0 else (if s[0] == c then 1 else 0) + CountChar(s[1..], c)
  }

  /** `s.split(sep)` for a one-character separator: one more part than there
      are separators, and no part contains the separator. */
  function Split(s: string, sep: char): (parts: seq<string>)
    ensures |parts| == CountChar(s, sep) + 1
    ensures forall i :: 0 <= i < |parts| ==> sep !in parts[i]
  {
    if |s| == 0 then [""]
    else
      var rest := Split(s[1..], sep);
      if s[0] == sep then [""] + rest
      else [[s[0]] + rest[0]] + rest[1..]
  }

  /** `parts.join(sep)`. */
  function Join(parts: seq<string>, sep: char): string
    requires |parts| >= 1
  {
    if |parts| == 1 then parts[0] else parts[0] + [sep] + Join(parts[1..], sep)
  }

  /** Joining the parts of a split gives back the original string. */
  lemma {:induction false} JoinSplit(s: string, sep: char)
    ensures Join(Split(s, sep), sep) == s
  {
    if |s| > 0 {
      JoinSplit(s[1..], sep);
      var rest := Split(s[1..], sep);
      if s[0] != sep {
        if |rest| == 1 {
          assert Join(rest, sep) == rest[0];
        } else {
          assert Join(rest, sep) == rest[0] + [sep] + Join(rest[1..], sep);
          assert Join([[s[0]] + rest[0]] + rest[1..], sep)
              == [s[0]] + rest[0] + [sep] + Join(rest[1..], sep);
        }
      }
    }
  }

  /** Splitting a join of separator-free parts gives back the parts. */
  lemma {:induction false} SplitJoin(parts: seq<string>, sep: char)
    requires |parts| >= 1
    requires forall i :: 0 <= i < |parts| ==> sep !in parts[i]
    ensures Split(Join(parts, sep), sep) == parts
    decreases |parts|, |parts[0]|
  {
    var p := parts[0];
    if |p| == 0 {
      if |parts| > 1 {
        var rest := parts[1..];
        SplitJoin(rest, sep);
        assert Join(parts, sep) == [sep] + Join(rest, sep);
        SplitAtSeparator(Join(rest, sep), sep);
        assert [""] + rest == parts;
      }
    } else {
      var parts' := [p[1..]] + parts[1..];
      ShortenedPartsHaveNoSeparator(parts, sep);
      SplitJoin(parts', sep);
      JoinOfShortenedFirst(parts, sep);
      SplitAtOther(p[0], Join(parts', sep), sep);
      assert [p[0]] + p[1..] == p;
      assert [p] + parts[1..] == parts;
    }
  }

  /** A leading separator ends an empty first part. */
  lemma SplitAtSeparator(t: string, sep: char)
    ensures Split([sep] + t, sep) == [""] + Split(t, sep)
  {
    assert ([sep] + t)[1..] == t;
  }

  /** A leading character other than the separator opens the first part. */
  lemma SplitAtOther(c: char, t: string, sep: char)
    requires c != sep
    ensures Split([c] + t, sep) == [[c] + Split(t, sep)[0]] + Split(t, sep)[1..]
  {
    assert ([c] + t)[1..] == t;
  }

  /** Dropping the first character of the first part keeps every part free
      of the separator. */
  lemma ShortenedPartsHaveNoSeparator(parts: seq<string>, sep: char)
    requires |parts| >= 1 && |parts[0]| > 0
    requires forall i :: 0 <= i < |parts| ==> sep !in parts[i]
    ensures var parts' := [parts[0][1..]] + parts[1..];
            forall i :: 0 <= i < |parts'| ==> sep !in parts'[i]
  {
    var parts' := [parts[0][1..]] + parts[1..];
    forall i | 0 <= i < |parts'| ensures sep !in parts'[i] {
      if i == 0 {
        assert forall k :: 0 <= k < |parts[0][1..]| ==> parts[0][1..][k] == parts[0][k + 1];
      } else {
        assert parts'[i] == parts[i];
      }
    }
  }

  /** The join starts with the first character of the first part, followed
      by the join with that character dropped. */
  lemma JoinOfShortenedFirst(parts: seq<string>, sep: char)
    requires |parts| >= 1 && |parts[0]| > 0
    ensures Join(parts, sep) == [parts[0][0]] + Join([parts[0][1..]] + parts[1..], sep)
  {
    var p := parts[0];
    var parts' := [p[1..]] + parts[1..];
    assert parts'[1..] == parts[1..];
    assert [p[0]] + p[1..] == p;
  }

  // ---------------------------------------------------------------------------
  // Decimal digits, String(n), padStart and parseInt
  // ---------------------------------------------------------------------------

  /** An ASCII decimal digit, the class `\d` and `[0-9]` match. */
  predicate IsAsciiDigit(c: char) {
    '0' <= c <= '9'
  }

  /** A string made only of ASCII digits. */
  predicate AllAsciiDigits(s: string) {
    forall i :: 0 <= i < |s| ==> IsAsciiDigit(s[i])
  }

  /** The ASCII digit for `d`. */
  function DigitChar(d: nat): (c: char)
    requires d < 10
    ensures IsAsciiDigit(c) && c as int - '0' as int == d
  {
    ('0' as int + d) as char
  }

  /** The numeric value of a run of ASCII digits, read most significant first. */
  function DigitsValue(s: string): nat
    requires AllAsciiDigits(s)
  {
    if |s| == 0 then 0
    else 10 * DigitsValue(s[..|s| - 1]) + (s[|s| - 1] as int - '0' as int)
  }

  /** `String(n)` for a natural number: its shortest decimal spelling. */
  function NatToString(n: nat): (s: string)
    ensures |s| >= 1 && AllAsciiDigits(s)
    ensures |s| > 1 ==> s[0] != '0'
    ensures |s| == 1 <==> n < 10
  {
    if n < 10 then [DigitChar(n)] else NatToString(n / 10) + [DigitChar(n % 10)]
  }

  /** Reading back the decimal spelling of `n` gives `n`. */
  lemma {:induction false} DigitsValueOfNatToString(n: nat)
    ensures DigitsValue(NatToString(n)) == n
  {
    if n >= 10 {
      DigitsValueOfNatToString(n / 10);
      var s := NatToString(n);
      assert s[..|s| - 1] == NatToString(n / 10);
    }
  }

  /** A leading zero does not change the value of a digit run. */
  lemma {:induction false} DigitsValueLeadingZero(s: string)
    requires AllAsciiDigits(s)
    ensures AllAsciiDigits("0" + s) && DigitsValue("0" + s) == DigitsValue(s)
  {
    if |s| > 0 {
      DigitsValueLeadingZero(s[..|s| - 1]);
      assert ("0" + s)[..|"0" + s| - 1] == "0" + s[..|s| - 1];
    }
  }

  /** `String(n).padStart(2, '0')`: a one-digit number gets one leading
      zero, a longer one is left as it is. */
  function Pad2(n: nat): (s: string)
    ensures |s| >= 2 && AllAsciiDigits(s)
    ensures n < 10 ==> s == ['0', DigitChar(n)]
    ensures n >= 10 ==> s == NatToString(n)
    ensures n < 100 ==> |s| == 2
  {
    var d := NatToString(n);
    if |d| < 2 then "0" + d else d
  }

  /** The longest prefix of `s` made of ASCII digits. */
  function DigitPrefix(s: string): (d: string)
    ensures |d| <= |s| && d == s[..|d|] && AllAsciiDigits(d)
    ensures |d| < |s| ==> !IsAsciiDigit(s[|d|])
  {
    if |s| > 0 && IsAsciiDigit(s[0]) then [s[0]] + DigitPrefix(s[1..]) else ""
  }

  /** A string made only of digits is its own digit prefix. */
  lemma DigitPrefixOfDigits(s: string)
    requires AllAsciiDigits(s)
    ensures DigitPrefix(s) == s
  {
  }

  /** Value of the digit run that follows an optional sign, `None` when there
      is no digit there. */
  function SignedDigits(t: string): Option<int> {
    if |t| > 0 && (t[0] == '-' || t[0] == '+') then
      var d := DigitPrefix(t[1..]);
      var v: int := if |d| == 0 then 0 else DigitsValue(d);
      if |d| == 0 then None else Some(if t[0] == '-' then -v else v)
    else
      var d := DigitPrefix(t);
      if |d| == 0 then None else Some(DigitsValue(d))
  }

  /** `parseInt(s)` with the default radix: leading whitespace is skipped, an
      optional sign is read, then the longest run of decimal digits; anything
      after the run is ignored. `None` stands for `NaN` (no digit at all). */
  function ParseInt(s: string): (r: Option<int>)
    ensures r.None? <==> (var t := TrimStart(s);
                          var u := if |t| > 0 && (t[0] == '-' || t[0] == '+') then t[1..] else t;
                          |u| == 0 || !IsAsciiDigit(u[0]))
    ensures r.Some? ==> (var t := TrimStart(s);
                         var u := if t[0] == '-' || t[0] == '+' then t[1..] else t;
                         var v: int := DigitsValue(DigitPrefix(u));
                         r.value == if t[0] == '-' then -v else v)
  {
    SignedDigits(TrimStart(s))
  }

  /** `parseInt` of leading blanks, a run of digits and anything not
      starting with a digit: the value of the run. This covers `" 1 "`,
      `"07"` and `"12abc"`. */
  lemma ParseIntReads(blanks: string, digits: string, rest: string)
    requires forall i :: 0 <= i < |blanks| ==> IsWhitespace(blanks[i])
    requires |digits| >= 1 && AllAsciiDigits(digits)
    requires |rest| == 0 || !IsAsciiDigit(rest[0])
    ensures ParseInt(blanks + (digits + rest)) == Some(DigitsValue(digits))
  {
    var t := digits + rest;
    UnsignedRun(digits, rest);
    TrimStartBlanks(blanks, t);
    ParseIntAfterBlanks(blanks, t);
  }

  /** `parseInt` of leading blanks, a sign, a run of digits and anything not
      starting with a digit: the value of the run, negated after `-`. This
      covers `"-5"` and `" +12 "`. */
  lemma ParseIntReadsSigned(blanks: string, sign: char, digits: string, rest: string)
    requires forall i :: 0 <= i < |blanks| ==> IsWhitespace(blanks[i])
    requires sign == '-' || sign == '+'
    requires |digits| >= 1 && AllAsciiDigits(digits)
    requires |rest| == 0 || !IsAsciiDigit(rest[0])
    ensures ParseInt(blanks + ([sign] + digits + rest))
            == Some(if sign == '-' then -(DigitsValue(digits) as int) else DigitsValue(digits))
  {
    var t := [sign] + digits + rest;
    SignedRun(sign, digits, rest);
    TrimStartBlanks(blanks, t);
    ParseIntAfterBlanks(blanks, t);
  }

  /** A digit run starts with a non-blank and reads as its value. */
  lemma UnsignedRun(digits: string, rest: string)
    requires |digits| >= 1 && AllAsciiDigits(digits)
    requires |rest| == 0 || !IsAsciiDigit(rest[0])
    ensures var t := digits + rest;
            |t| > 0 && !IsWhitespace(t[0]) && SignedDigits(t) == Some(DigitsValue(digits))
  {
    var t := digits + rest;
    DigitPrefixStops(digits, rest);
    assert t[0] == digits[0];
    assert t[0] != '-' && t[0] != '+';
  }

  /** A sign followed by a digit run starts with a non-blank and reads as the
      signed value of the run. */
  lemma SignedRun(sign: char, digits: string, rest: string)
    requires sign == '-' || sign == '+'
    requires |digits| >= 1 && AllAsciiDigits(digits)
    requires |rest| == 0 || !IsAsciiDigit(rest[0])
    ensures var t := [sign] + digits + rest;
            |t| > 0 && !IsWhitespace(t[0])
            && SignedDigits(t) == Some(if sign == '-' then -(DigitsValue(digits) as int) else DigitsValue(digits))
  {
    var t := [sign] + digits + rest;
    DigitPrefixStops(digits, rest);
    assert t[0] == sign;
    assert t[1..] == digits + rest;
    SignedDigitsOfPrefix(t, digits);
  }

  /** The signed case of `SignedDigits`, once the run after the sign is
      known. */
  lemma SignedDigitsOfPrefix(t: string, digits: string)
    requires |t| > 0 && (t[0] == '-' || t[0] == '+')
    requires |digits| > 0 && AllAsciiDigits(digits) && DigitPrefix(t[1..]) == digits
    ensures SignedDigits(t) == Some(if t[0] == '-' then -(DigitsValue(digits) as int) else DigitsValue(digits))
  {
  }

  /** `parseInt` skips the leading blanks and reads what follows. */
  lemma ParseIntAfterBlanks(blanks: string, t: string)
    requires TrimStart(blanks + t) == t
    ensures ParseInt(blanks + t) == SignedDigits(t)
  {
  }

  /** Leading blanks in front of a text that starts with a non-blank are all
      that `TrimStart` removes. */
  lemma {:induction false} TrimStartBlanks(blanks: string, t: string)
    requires forall i :: 0 <= i < |blanks| ==> IsWhitespace(blanks[i])
    requires |t| > 0 && !IsWhitespace(t[0])
    ensures TrimStart(blanks + t) == t
  {
    if |blanks| == 0 {
      assert blanks + t == t;
    } else {
      assert (blanks + t)[1..] == blanks[1..] + t;
      TrimStartBlanks(blanks[1..], t);
    }
  }

  /** The digit prefix of a run of digits followed by a non-digit is the run. */
  lemma {:induction false} DigitPrefixStops(digits: string, rest: string)
    requires AllAsciiDigits(digits)
    requires |rest| == 0 || !IsAsciiDigit(rest[0])
    ensures DigitPrefix(digits + rest) == digits
  {
    if |digits| == 0 {
      assert digits + rest == rest;
    } else {
      assert (digits + rest)[1..] == digits[1..] + rest;
      DigitPrefixStops(digits[1..], rest);
    }
  }

  /** `parseInt` reads back a string of digits as its decimal value. */
  lemma ParseIntOfDigits(s: string)
    requires |s| >= 1 && AllAsciiDigits(s)
    ensures ParseInt(s) == Some(DigitsValue(s))
  {
    DigitPrefixOfDigits(s);
    assert IsAsciiDigit(s[0]);
    assert !IsWhitespace(s[0]);
    assert TrimStart(s) == s;
    assert SignedDigits(s) == Some(DigitsValue(s));
  }

  /** `parseInt(String(n)) == n`. */
  lemma ParseIntOfNatToString(n: nat)
    ensures ParseInt(NatToString(n)) == Some(n)
  {
    ParseIntOfDigits(NatToString(n));
    DigitsValueOfNatToString(n);
  }

  /** `parseInt(String(n).padStart(2, '0')) == n`. */
  lemma ParseIntOfPad2(n: nat)
    ensures ParseInt(Pad2(n)) == Some(n)
  {
    var d := NatToString(n);
    DigitsValueOfNatToString(n);
    if |d| < 2 {
      DigitsValueLeadingZero(d);
    }
    ParseIntOfDigits(Pad2(n));
  }

  // ---------------------------------------------------------------------------
  // Note and description previews
  // ---------------------------------------------------------------------------

  /** The number of characters a table cell shows before it is cut short. */
  const PreviewLength: nat := 50

  /** `text.substring(0, 50)` followed by `...` exactly when the text is longer
      than 50 characters. */
  function Preview(text: string): (r: string)
    ensures |text| <= PreviewLength ==> r == text
    ensures |text| > PreviewLength ==>
              |r| == PreviewLength + 3 && r[..PreviewLength] == text[..PreviewLength]
              && r[PreviewLength..] == "..."
  {
    if |text| > PreviewLength then text[..PreviewLength] + "..." else text
  }

  /** A preview never exceeds 53 characters, always starts with the text's
      first characters, and previewing a preview changes nothing. */
  lemma PreviewShape(text: string)
    ensures |Preview(text)| <= PreviewLength + 3
    ensures var n := if |text| < PreviewLength then |text| else PreviewLength;
            Preview(text)[..n] == text[..n]
    ensures Preview(Preview(text)) == Preview(text)
  {
    if |text| > PreviewLength {
      var r := Preview(text);
      assert r[..PreviewLength] + "..." == r;
    }
  }
}

=== FILE: wrappers.dfy ===
/** Small failure-carrying datatypes shared by every module of the model. */
module Wrappers {

  /** A value that may be absent; stands for a JavaScript `null`, `undefined` or `NaN`. */
  datatype Option<+T> = None | Some(value: T) {

    /** The wrapped value, or `default` when there is none (the `x || default` idiom). */
    function GetOr(default: T): T {
      match this
      case Some(v) => v
      case None => default
    }
  }

  /** Either the record an operation would write, or the reason it refused to write. */
  datatype Result<+R, +E> = Ok(value: R) | Err(error: E)
}
